=== FILE: README.md ===
# Car price prediction: the decision logic, modelled in Dafny

The system is a Flask service (`app.py`) that predicts used-car prices in
Saudi riyals from a form, plus the browser script (`script.js`) that drives
the form. Most of both files is glue around a trained model, the DOM and
HTTP. This project models the pure decision logic around that glue and
proves properties of it.

Server side (`app.py`):

- **Categories**: the three bucketing functions `categorize_make`,
  `categorize_engine` and `categorize_mileage`.
- **Pipeline**: the front half of `/predict`, which turns the posted form
  into the model's input vector. It has four stages:
  - collect the inputs, aborting on the first entry whose value is empty or
    (for a feature that is not categorical) rejected by `float()`;
  - engineer `Car_Age` and the three class features;
  - label-encode the categorical features through an uninterpreted partial
    encoder;
  - lay the vector out in the model's feature order, with 0 for absent
    features.
- **TypeIndex**: the make-to-types index built at start-up (`make_type_map`)
  and the three-way answer of `/get_types/<make>`.

Browser side (`script.js`):

- **Validation**: the rule of `validateForm` and the markers it leaves on
  each control. A control has an `error` class and tooltips in its form
  group.
- **Dropdown**: the Type drop-down. It covers the Make `change` handler
  (cache hit or request), `populateTypeOptions`, completion of the types
  request, and the merge of the server's map.
- **Page**: the submit handler, the completion of the prediction request,
  and the reset button.
- **Samples**: `loadSampleData` (truncation to six cards, the map merge,
  the notices) and `fillFormWithSample` (the key filter and the year
  read-out).
- **Flows**: properties that cross from the server to the page.

`Basics` (Option, Result, JavaScript truthiness, `includes`) and `Strings`
hold shared helpers:

- the code-unit order of JavaScript's default `sort`;
- an insertion sort into that order, with uniqueness of sorted
  rearrangements;
- the first-occurrence de-duplication of pandas' `unique`.

Three behaviours are modelled as the code has them:

- **Cache hit.** An empty cached type list still counts as a hit, because
  any array is truthy in JavaScript. The page then shows only the
  placeholder and sends no request.
- **Load-time flag.** Whether the page-embedded map may be used is decided
  once, at load (`script.js:16`). This happens before `initFormElements`
  creates an empty map. A map the server later merges in
  (`script.js:211-214`) therefore never switches the cache on. The model
  assumes that the `makeTypeMap` the handler reads (`script.js:16`, `32`)
  and `window.makeTypeMap` (`script.js:213`, `367`) are one object, as
  they are when the page declares the map with `var` or not at all. A map
  declared with a top-level `const` or `let` would be a different object,
  and merges would never reach the handler.
- **Tooltip removal.** Validation and reset each remove only the first
  tooltip of a control's form group (`querySelector`). The "at most one
  tooltip" property is therefore stated for controls that start with at
  most one.

Number parsing (Python's `float()`, JavaScript's `parseFloat`) is an
uninterpreted partial function `string -> Option<real>`. NaN and the
infinities are not values. JavaScript's number-to-string and Python's
`str` on floats are uninterpreted `real -> string` parameters.

## Model

| member | source | states |
|---|---|---|
| Basics.ContainsWindow | script.js:274 | `key.includes(sub)` holds exactly when some window of the key equals `sub` |
| Strings.Sort | script.js:62 | `types.sort()` leaves the same multiset of types, in ascending code-unit order |
| Strings.SortedUnique | script.js:62 | two sorted sequences with the same elements are equal, so the order the types arrive in never shows |
| Strings.SortIdempotent | script.js:62 | sorting an already sorted list changes nothing |
| Strings.NoDupPermutation | script.js:62 | sorting a list without duplicates produces none |
| Strings.Unique | app.py:57 | `Series.unique()`: no duplicates, exactly the elements of the input, in order of first occurrence |
| Categories.BrandListsDisjoint | app.py:73-75 | no brand is both luxury and budget, so the make class is unambiguous |
| Categories.BrandListSizes | app.py:73-75 | 13 luxury and 9 budget brands, none listed twice |
| Categories.CategorizeMake | app.py:72-82 | 'Luxury' exactly for a listed luxury name, 'Budget' exactly for a listed budget name, 'Standard' for everything else, numbers included |
| Categories.EngineBand | app.py:87-94 | the ladder partitions sizes: below 1.5, [1.5, 2.5), [2.5, 4.0), 4.0 and above |
| Categories.CategorizeEngine | app.py:84-96 | a parsed size gets its band; a value `float()` rejects gets 'Medium' |
| Categories.MileageBand | app.py:101-108 | the ladder partitions mileage: below 50000, [50000, 100000), [100000, 150000), 150000 and above |
| Categories.CategorizeMileage | app.py:98-110 | a parsed mileage gets its band; a value `float()` rejects gets 'Medium' |
| Categories.EngineBandMonotone | app.py:87-94 | a larger engine never falls into a lower band |
| Categories.MileageBandMonotone | app.py:101-108 | a larger mileage never falls into a lower band |
| Categories.LabelsInjective | app.py:77-108 | distinct classes carry distinct labels |
| Pipeline.FirstValueIsFirst | app.py:130 | `request.form.get` yields the value of the first entry of that name, and '' when there is none |
| Pipeline.Collect | app.py:129-138 | collection succeeds exactly when every entry's value is non-empty and converts; otherwise the error belongs to the first entry that does not |
| Pipeline.CollectedValues | app.py:129-136 | after a successful collection, the keys are exactly the submitted names; categorical values are kept as text and the others hold the parsed number |
| Pipeline.Engineer | app.py:141-151 | `Car_Age` is 2025 minus the numeric year; a year kept as text makes the subtraction raise |
| Pipeline.EngineerKeys | app.py:141-151 | each derived feature is added exactly when its source feature is present |
| Pipeline.EngineerKeepsSubmitted | app.py:141-151 | no submitted entry is altered, other than one named like a derived feature |
| Pipeline.EngineerClasses | app.py:144-151 | the class features are the labels of `categorize_make`, `categorize_engine` and `categorize_mileage` applied to the inputs |
| Pipeline.EncodeKeeps | app.py:154-160 | encoding keeps the set of features and changes no unlisted one; it fails only on a listed feature that is present |
| Pipeline.EncodeSucceeds | app.py:154-160 | for a feature list without duplicates, encoding succeeds exactly when every listed value that is present is known to its encoder |
| Pipeline.EncodeCodes | app.py:154-157 | for a feature list without duplicates, after a successful encoding, each listed value holds its class code |
| Pipeline.EncodeFirstUnknown | app.py:154-160 | for a feature list without duplicates, a failed encoding reports the first listed feature whose value the encoder rejects, together with that value |
| Pipeline.Layout | app.py:163 | the vector has one slot per model feature, holding that feature's entry or 0 when it is absent |
| Pipeline.Prepare | app.py:129-163 | a prepared vector has the model's length, and only a form whose every entry is accepted gets one |
| Pipeline.FirstEmptyAborts | app.py:129-138 | when the first rejected entry is empty, the request aborts with "Missing value for" that entry's name |
| Pipeline.EmptyValueBlocksPrediction | app.py:131-138 | no vector is prepared while the first value of any submitted name is empty |
| Pipeline.CollectedField | app.py:129-136 | every submitted name is collected, holding its first value converted |
| Pipeline.EncodeKeepsOthers | app.py:154-157 | encoding leaves every feature that is not categorical unchanged |
| Pipeline.NumericFieldReachesVector | app.py:129-163 | a plain numeric field reaches the model as the number parsed from its first value |
| Pipeline.CarAgeReachesVector | app.py:141-163 | the car's age reaches the model as 2025 minus the submitted year |
| Pipeline.Message | app.py:138-160 | never empty; "Missing value for <feature>", "Unknown value for <feature>: <value>", and `float()`'s "could not convert string to float: " followed by Python's `repr` of the text |
| Pipeline.MissingMessageInjective | app.py:138 | a missing-value message names exactly one feature |
| TypeIndex.Makes | app.py:56 | the make column holds exactly the makes some row carries |
| TypeIndex.TypesOf | app.py:57 | the filtered type column holds exactly the types paired with the make |
| TypeIndex.BuildIndex | app.py:52-58 | keys are exactly the makes in the rows; each list holds that make's distinct types once each, in first-occurrence order |
| TypeIndex.GetTypes | app.py:241-264 | an indexed make gets its indexed list; off the index with a dataset loaded: the make's distinct types; without a dataset: all known types |
| TypeIndex.IndexAgreesWithFilter | app.py:244-256 | answering from the index and filtering the dataset agree |
| TypeIndex.TypesOfAbsent | app.py:252 | filtering on a make no row carries yields nothing |
| TypeIndex.UnknownMakeHasNoTypes | app.py:250-256 | an unknown make gets a successful, empty list when the dataset is loaded |
| Validation.TooltipText | script.js:311-326 | the required-field text is "This field is required", and only the required tooltip has that text |
| Validation.FieldTooltips | script.js:310-329 | a control gets at most one tooltip, and gets one exactly when it is flagged (required and empty, or a number outside a declared bound) |
| Validation.FlaggedRule | script.js:311-323 | a non-empty number that parses is flagged exactly when it lies outside the closed interval of its declared bounds; any other control is flagged exactly when it is required and empty |
| Validation.BoundsInclusive | script.js:318-328 | a parsed value between the bounds, either end included, is never flagged |
| Validation.UnparsableNotOutOfBounds | script.js:319-323 | a value `parseFloat` turns into NaN never trips a bound |
| Validation.DropFirst | script.js:305-308 | the first tooltip of the group is the one removed and the rest stay in order; an empty group stays empty |
| Validation.ValidateControl | script.js:301-329 | the control is marked exactly when flagged; its group loses only its first tooltip, the rest kept in order, and gains one tooltip exactly when flagged, the control's message |
| Validation.ValidateLeavesOwnTooltip | script.js:303-328 | a control that starts with at most one tooltip ends with exactly its own message, so it stays well-formed |
| Validation.StaleMarkersIrrelevant | script.js:302-308 | markers from an earlier run do not influence the next |
| Validation.ValidateIdempotent | script.js:301-330 | validating twice on unchanged input gives what validating once gives |
| Validation.FirstMarked | script.js:334-338 | focus goes to the first marked control, and to none when no control is marked |
| Validation.NoneMarkedIffNoneFlagged | script.js:311-330 | after a run no control is marked exactly when no control is flagged |
| Validation.ValidateForm | script.js:297-344 | the form is valid exactly when no control is flagged; every control is validated; a rejected form focuses its first flagged control |
| Dropdown.PopulateTypeOptions | script.js:55-71 | the placeholder first, then one enabled option per type (the same multiset) in ascending order |
| Dropdown.PopulateIgnoresOrder | script.js:62-70 | the options depend only on the multiset of types given |
| Dropdown.PopulateIdempotent | script.js:55-71 | rendering the rendered types again gives the same options |
| Dropdown.PopulateShowsEachType | script.js:62-70 | the options show exactly the given types, each once when the types carry no duplicate |
| Dropdown.PageLoad | script.js:16 | the cache flag is set exactly when the page embeds a non-empty map; an absent map becomes an empty one |
| Dropdown.MakeChange | script.js:22-37 | a hit (flag set and key present) sends no request and renders the cached list sorted in place; a miss sends exactly one request to `/get_types/<make>` and shows the placeholder and "Loading..." |
| Dropdown.CompleteTypesFetch | script.js:38-50 | success with a non-empty list renders it; any other reply leaves only "No types found for this make"; a failed request leaves only "Error loading types" |
| Dropdown.HitMatchesFetch | script.js:32-41 | a non-empty cached list renders exactly as the same list fetched from the server |
| Dropdown.EmptyCachedListIsHit | script.js:32-34 | an empty cached list is a hit that leaves only the placeholder, where the server would have said "not found" |
| Dropdown.MergeServerMap | script.js:211-214 | the merged map has both sets of keys, and the server's entries win on shared keys |
| Dropdown.MergeNeverEnablesCache | script.js:16-37 | a page loaded without a usable map keeps requesting types, however much the server's map has filled it |
| Dropdown.MergedEntryIsShown | script.js:211-214 | with the cache on, a merged entry is what a later Make change shows |
| Page.IndexOf | script.js:261 | the first control carrying the name, as `getElementById` finds it; none exactly when no control carries it |
| Page.FormEntries | script.js:95 | the posted form holds one (name, value) entry per control, in document order |
| Page.Submit | script.js:79-101 | a form with a flagged control sends nothing and shows "Please correct the highlighted fields."; otherwise both panels are hidden, loading is shown, and every control's (name, value) is posted |
| Page.CompletePredict | script.js:102-130 | loading is hidden in every outcome; a truthy `error` is shown verbatim with the results untouched; otherwise the price is shown; a failed request shows the fixed failure text |
| Page.OnePanelAfterReply | script.js:87-130 | after an accepted submission exactly one panel shows, and it is the result panel exactly when the server answered without an error |
| Page.ResetControl | script.js:135-157 | a control gets its default value back (the Type select its placeholder's empty value), loses its class and the first tooltip of its group, and keeps its name, flags and bounds |
| Page.Reset | script.js:134-158 | defaults are restored, markers cleared, both panels hidden, the Type options back to the placeholder, and the year read-out shows the slider's default |
| Page.ResetClearsMarkers | script.js:147-157 | reset leaves well-formed controls without class or tooltip |
| Page.ResetIdempotent | script.js:134-158 | pressing reset twice is pressing it once |
| Page.ResetBlocksSubmitUntilTypeChosen | script.js:143-144 | after a reset a required Type select is flagged until a type is chosen |
| Samples.Shown | script.js:220 | the cards offered are the leading samples, at most six |
| Samples.Panel | script.js:216-250 | cards for the leading samples, "No sample data available" when there are none, the failure notice when a card cannot be built |
| Samples.LoadSamples | script.js:202-256 | a truthy error shows "No sample data available" and skips the merge; a failed request shows "Error loading samples"; otherwise a non-empty server map is merged and the panel follows the samples |
| Samples.CardsAreLeadingSamples | script.js:216-220 | between one and six cards, each the sample at the same position |
| Samples.LaterSamplesIgnored | script.js:220 | samples past the sixth never influence the panel |
| Samples.MergeDespiteRenderFailure | script.js:206-214 | the server's map is merged even when its samples then fail to render, but never when the reply carries an error |
| Samples.SetMake | script.js:263 | the Make control holds the sample's make, and nothing else changes |
| Samples.ApplyFields | script.js:272-282 | each control holds the sample field of its name when it is the first control so named and the field passes the key filter, and keeps its value otherwise |
| Samples.FillFormWithSample | script.js:259-290 | without a Make control or a non-empty make nothing changes; otherwise the Make change runs for the sample's make and the year read-out follows a written year |
| Samples.FillWritesApplicableFields | script.js:261-282 | the controls end holding exactly the sample's fields that name them and contain neither "Predicted" nor "Error" |
| Samples.MakeAndYearApply | script.js:274 | `Make` and `Year` pass the key filter |
| Samples.FillIgnoresReportFields | script.js:272-282 | samples that differ only in fields containing "Predicted" or "Error" fill the form alike |
| Flows.ServerTypesShown | app.py:241-256 | a types answer for a make in the dataset renders each of its types once, ascending; an unknown make renders "No types found for this make" |
| Flows.PostedValueIsFirstControl | script.js:95 | the value Flask's `form.get` reads for a name is the value of the first control with that name, and '' when no control has it (`app.py:130`) |
| Flows.AcceptedFormNeverMissing | app.py:129-138 | a form of required controls that the page accepts never provokes a missing-value error |
| Flows.PredictAnswer | app.py:178-185 | the reply's `error` is truthy exactly when preparation aborted, and then holds the error text; a prepared vector answers with the price |
| Flows.ServerAnswerShown | script.js:103-120 | every error the server reports appears verbatim in the banner; a prepared vector shows the price |

## Left out

- The trained model, `np.expm1`, `round` and the thousands formatting of the price (`app.py:166-176`) are left out: they are foreign calls and floating-point numerics. The formatted price is a parameter of `Flows.PredictAnswer`.
- Exceptions raised in the server's model, loading or formatting steps (`app.py:184-185`) are left out: the model has no exception channel beyond the modelled errors.
- NaN and the infinities are left out, both on the server (`float('nan')` is accepted by `float()`) and in the browser. A `min`/`max` attribute that does not parse is treated as absent. This matches the comparison outcome, but the tooltip would print `NaN` where the model prints `null`. Numbers are exact reals: `Car_Age` is `2025` minus the year with no floating-point rounding, where Python subtracts floats (`app.py:142`).
- The sorting of `categorical_values` at start-up (`app.py:61-64`) and the rendering of the index page (`app.py:112-120`) are left out: template glue.
- Loading the pickles and CSV files, and a dataset without a `Make` or `Type` column, are left out: file I/O.
- Empty cells in the dataset are left out. pandas reads them as NaN, and `unique()` keeps NaN as a make or a type; a `Row` holds text only.
- `/test_data` and `/model_info` (`app.py:187-238`) and `loadModelInfo` are left out: pandas sorting, numeric coercions and number formatting. The sample reply is an input to `Samples.LoadSamples`.
- The year slider's `input` handler (`script.js:74-76`) is left out: it only updates the read-out.
- `initFormElements` setting the slider's maximum to 2025 (`script.js:358-359`) is left out. That maximum bounds the value the Year range can post, so the slider never posts a year after 2025; the model takes control values as given.
- Focus, scrolling, the highlight animation and `innerHTML` markup are left out: presentation.
- Samples.FillFormWithSample: a card keeps its sample in a single-quoted attribute, `data-sample='${JSON.stringify(sample)}'` (`script.js:224`), and a click reads it back with `JSON.parse` (`script.js:244`). A `'` in a sample value cuts the attribute short, so the parse throws and the form is not filled; entity text such as `&amp;` is decoded on the way. The model assumes this round trip is lossless and fills the form from the sample itself.
- `setTimeout` (`script.js:271`, `286-289`), overlapping requests and the order in which replies arrive are left out: timing. `Samples.FillFormWithSample` applies the delayed field loop right after the Make change.
- Validation.ValidateForm: `form.querySelector('.error')` may find an element other than a form control; the model looks at controls only.
- Samples.FillFormWithSample, Samples.ApplyFields, Page.Reset: `getElementById` may find an element outside the form, or one whose id differs from its name. That covers the sample's keys (`script.js:261`, `273`), and the Year slider and Type select that reset touches (`script.js:5`, `140`, `143`). The model looks up controls by name, taking the first control with that name.
- Samples.FillFormWithSample, Samples.ApplyFields: assigning a value a `<select>` does not offer leaves it empty in a browser. The model stores the value as given.
- Page.Submit, Page.FormEntries: `FormData` skips disabled and unnamed controls, and unchecked checkboxes and radio buttons, and sends several entries for multi-selects. It also sends nothing for a `<select>` whose chosen option is disabled: the Type placeholder after a reset, "No types found for this make" and "Error loading types". The model posts one entry per control, so such a Type select posts an empty value. When Type is required, validation blocks these submissions anyway. When it is not, the browser would omit Type, while the model's server answers `Missing value for Type`.
- Page.Reset: when the form has no `Year` control the script raises. The model then leaves the read-out unchanged.
- A control outside any `.form-group` is left out: validation and reset call `querySelector` on the result of `closest('.form-group')`, which throws when it is null (`script.js:152-153`, `304-305`). The model gives every control a group.
- Controls sharing one form group are left out. Validation and reset then remove one another's tooltips; the model gives each control its own group.
- JavaScript property keys that collide with `Object.prototype` names are left out: the page's type map is a plain finite map.
- Sample values are the text the form receives; JSON numbers and their string conversion are left out.
- The URL of the types request is `"/get_types/" + make`, with no percent-encoding and no server-side decoding.
- The code-unit order compares `char`s. Strings outside the Basic Multilingual Plane, which JavaScript sorts by UTF-16 code units, are left out.
- Validation.TooltipText: only the required-field text is stated as a literal; the range text depends on JavaScript's number printing, which is a parameter.
- Pipeline.EncodeSucceeds: stated for a categorical feature list without duplicates. A feature listed twice is encoded twice (`app.py:154-157`), so the second pass sees the class code and may reject it.
- Pipeline.EncodeCodes: stated for a categorical feature list without duplicates, for the same reason.
- Pipeline.EncodeFirstUnknown: stated for a categorical feature list without duplicates, for the same reason.

=== FILE: basics.dfy ===
/** Small wrappers shared by the server-side and client-side models. */
module Basics {

  /** An optional value: a JSON field that may be absent, a parse that may fail. */
  datatype Option<+T> = None | Some(value: T) {

    /** The carried value, or `default` when there is none. */
    function GetOr(default: T): T
    {
      match this
      case Some(v) => v
      case None => default
    }
  }

  /** The outcome of a step that may abort with an error. */
  datatype Result<+T, +E> = Ok(value: T) | Err(error: E)

  /** JavaScript truthiness of an optional JSON string: present and not empty. */
  predicate Truthy(s: Option<string>)
  {
    s.Some? && s.value != ""
  }

  /** `sub` occurs as a contiguous run of `s` (String.prototype.includes). */
  predicate Contains(s: string, sub: string)
    decreases |s|
  {
    if |sub| > |s| then false
    else s[..|sub|] == sub || (|s| > 0 && Contains(s[1..], sub))
  }

  /** `sub` is the window of `s` starting at `i`. */
  predicate OccursAt(s: string, sub: string, i: int)
  {
    0 <= i && i + |sub| <= |s| && s[i..i + |sub|] == sub
  }

  /** A window of `s` that does not start at 0 is a window of `s[1..]`. */
  lemma {:induction false} OccursAtTail(s: string, sub: string, i: int)
    requires OccursAt(s, sub, i) && i > 0
    ensures OccursAt(s[1..], sub, i - 1)
  {
    assert s[1..][i - 1..i - 1 + |sub|] == s[i..i + |sub|];
  }

  /** `Contains` holds exactly when some window of `s` equals `sub`. */
  lemma {:induction false} ContainsWindow(s: string, sub: string)
    ensures Contains(s, sub) <==> exists i :: OccursAt(s, sub, i)
    decreases |s|
  {
    if |sub| > |s| {
    } else if s[..|sub|] == sub {
      assert OccursAt(s, sub, 0);
    } else {
      ContainsWindow(s[1..], sub);
      if Contains(s[1..], sub) {
        var i :| OccursAt(s[1..], sub, i);
        assert s[i + 1..i + 1 + |sub|] == s[1..][i..i + |sub|];
        assert OccursAt(s, sub, i + 1);
      } else {
        forall i | OccursAt(s, sub, i)
          ensures false
        {
          if i > 0 {
            OccursAtTail(s, sub, i);
          }
        }
      }
    }
  }
}

=== FILE: categories.dfy ===
/** The three bucketing functions the server applies during feature
    engineering: make class, engine-size band and mileage band. */
module Categories {
  import opened Basics
  import opened Strings

  /** A value held in the prediction input dictionary: form text kept as is
      (categorical features) or a number produced by Python's `float()`. */
  datatype Value = Text(text: string) | Num(num: real)

  /** Python's `float(v)`: numbers pass through, text goes through `toFloat`,
      the partial string parser; `None` is the raised exception. */
  function ToFloat(v: Value, toFloat: string -> Option<real>): Option<real>
  {
    match v
    case Num(x) => Some(x)
    case Text(s) => toFloat(s)
  }

  const LuxuryBrands: seq<string> :=
    ["Mercedes-Benz", "BMW", "Audi", "Lexus", "Porsche", "Land Rover", "Jaguar",
     "Bentley", "Rolls-Royce", "Cadillac", "Maserati", "Lamborghini", "Ferrari"]

  const BudgetBrands: seq<string> :=
    ["Kia", "Hyundai", "Geely", "Chery", "Suzuki", "Daihatsu", "Faw", "Byd", "Great Wall"]

  datatype MakeCategory = Luxury | Budget | Standard {
    /** The label the trained encoders know this class by. */
    function Label(): string
    {
      match this
      case Luxury => "Luxury"
      case Budget => "Budget"
      case Standard => "Standard"
    }
  }

  datatype EngineCategory = SmallEngine | MediumEngine | LargeEngine | VeryLargeEngine {
    function Label(): string
    {
      match this
      case SmallEngine => "Small"
      case MediumEngine => "Medium"
      case LargeEngine => "Large"
      case VeryLargeEngine => "Very Large"
    }

    /** Position in the ascending ladder of bands. */
    function Rank(): nat
    {
      match this
      case SmallEngine => 0
      case MediumEngine => 1
      case LargeEngine => 2
      case VeryLargeEngine => 3
    }
  }

  datatype MileageCategory = LowMileage | MediumMileage | HighMileage | VeryHighMileage {
    function Label(): string
    {
      match this
      case LowMileage => "Low"
      case MediumMileage => "Medium"
      case HighMileage => "High"
      case VeryHighMileage => "Very High"
    }

    function Rank(): nat
    {
      match this
      case LowMileage => 0
      case MediumMileage => 1
      case HighMileage => 2
      case VeryHighMileage => 3
    }
  }

  /** No brand is both luxury and budget, so the make class is unambiguous. */
  lemma {:induction false} BrandListsDisjoint(s: string)
    ensures !(s in LuxuryBrands && s in BudgetBrands)
  {
  }

  /** The list lengths the training code fixed. */
  lemma BrandListSizes()
    ensures |LuxuryBrands| == 13 && NoDup(LuxuryBrands)
    ensures |BudgetBrands| == 9 && NoDup(BudgetBrands)
  {
  }

  /** `categorize_make`: only text can name a listed brand; a number never does. */
  function CategorizeMake(make: Value): (c: MakeCategory)
    ensures c == Luxury <==> make.Text? && make.text in LuxuryBrands
    ensures c == Budget <==> make.Text? && make.text in BudgetBrands
    ensures c == Standard <==> !(make.Text? && (make.text in LuxuryBrands || make.text in BudgetBrands))
  {
    if make.Text? && make.text in LuxuryBrands then
      BrandListsDisjoint(make.text);
      Luxury
    else if make.Text? && make.text in BudgetBrands then Budget
    else Standard
  }

  /** The engine-size ladder applied to a parsed size. */
  function EngineBand(size: real): (c: EngineCategory)
    ensures c == SmallEngine <==> size < 1.5
    ensures c == MediumEngine <==> 1.5 <= size < 2.5
    ensures c == LargeEngine <==> 2.5 <= size < 4.0
    ensures c == VeryLargeEngine <==> 4.0 <= size
  {
    if size < 1.5 then SmallEngine
    else if size < 2.5 then MediumEngine
    else if size < 4.0 then LargeEngine
    else VeryLargeEngine
  }

  /** `categorize_engine`: the ladder, or the medium band when `float()` fails. */
  function CategorizeEngine(size: Value, toFloat: string -> Option<real>): (c: EngineCategory)
    ensures ToFloat(size, toFloat).Some? ==> c == EngineBand(ToFloat(size, toFloat).value)
    ensures c == MediumEngine <==>
              ToFloat(size, toFloat).None? || 1.5 <= ToFloat(size, toFloat).value < 2.5
  {
    match ToFloat(size, toFloat)
    case None => MediumEngine
    case Some(x) => EngineBand(x)
  }

  /** The mileage ladder applied to a parsed mileage. */
  function MileageBand(miles: real): (c: MileageCategory)
    ensures c == LowMileage <==> miles < 50000.0
    ensures c == MediumMileage <==> 50000.0 <= miles < 100000.0
    ensures c == HighMileage <==> 100000.0 <= miles < 150000.0
    ensures c == VeryHighMileage <==> 150000.0 <= miles
  {
    if miles < 50000.0 then LowMileage
    else if miles < 100000.0 then MediumMileage
    else if miles < 150000.0 then HighMileage
    else VeryHighMileage
  }

  /** `categorize_mileage`: the ladder, or the medium band when `float()` fails. */
  function CategorizeMileage(miles: Value, toFloat: string -> Option<real>): (c: MileageCategory)
    ensures ToFloat(miles, toFloat).Some? ==> c == MileageBand(ToFloat(miles, toFloat).value)
    ensures c == MediumMileage <==>
              ToFloat(miles, toFloat).None? || 50000.0 <= ToFloat(miles, toFloat).value < 100000.0
  {
    match ToFloat(miles, toFloat)
    case None => MediumMileage
    case Some(x) => MileageBand(x)
  }

  /** A larger engine never falls in a lower band. */
  lemma EngineBandMonotone(a: real, b: real)
    requires a <= b
    ensures EngineBand(a).Rank() <= EngineBand(b).Rank()
  {
  }

  /** A larger mileage never falls in a lower band. */
  lemma MileageBandMonotone(a: real, b: real)
    requires a <= b
    ensures MileageBand(a).Rank() <= MileageBand(b).Rank()
  {
  }

  /** Distinct classes carry distinct labels, so encoding a label loses nothing. */
  lemma LabelsInjective(c: MakeCategory, d: MakeCategory, e: EngineCategory, f: EngineCategory,
                        m: MileageCategory, n: MileageCategory)
    ensures c.Label() == d.Label() ==> c == d
    ensures e.Label() == f.Label() ==> e == f
    ensures m.Label() == n.Label() ==> m == n
  {
  }
}

=== FILE: dropdown.dfy ===
/** The Type drop-down of the browser form: how a Make change resolves the
    list of types (page-embedded map or a request to the server), how the
    list is rendered, and how the server's map is merged in later. */
module Dropdown {
  import opened Basics
  import opened Strings

  /** One `<option>` of the Type `<select>`. */
  datatype SelectOption = SelectOption(value: string, text: string, disabled: bool, selected: bool)

  const Placeholder: SelectOption := SelectOption("", "Select Type", true, true)
  const LoadingOption: SelectOption := SelectOption("", "Loading...", true, false)
  const NotFoundOption: SelectOption := SelectOption("", "No types found for this make", true, true)
  const ErrorOption: SelectOption := SelectOption("", "Error loading types", true, true)

  /** The option added for one type: value and label are the type itself. */
  function TypeOption(t: string): SelectOption
  {
    SelectOption(t, t, false, false)
  }

  /** The values carried by a run of options. */
  function Values(options: seq<SelectOption>): (values: seq<string>)
    ensures |values| == |options|
    ensures forall i | 0 <= i < |options| :: values[i] == options[i].value
  {
    seq(|options|, i requires 0 <= i < |options| => options[i].value)
  }

  /** Every option of the run is an enabled, unselected type option. */
  predicate AllTypeOptions(options: seq<SelectOption>)
  {
    forall i | 0 <= i < |options| :: options[i] == TypeOption(options[i].value)
  }

  /** One type option per type, in the given order. */
  function TypeOptions(types: seq<string>): (options: seq<SelectOption>)
    ensures AllTypeOptions(options) && Values(options) == types
  {
    seq(|types|, i requires 0 <= i < |types| => TypeOption(types[i]))
  }

  /** `populateTypeOptions` (`script.js` lines 55-71): the placeholder, then one option
      per type in ascending code-unit order. */
  function PopulateTypeOptions(types: seq<string>): (options: seq<SelectOption>)
    ensures |options| == |types| + 1 && options[0] == Placeholder
    ensures AllTypeOptions(options[1..])
    ensures Sorted(Values(options[1..]))
    ensures multiset(Values(options[1..])) == multiset(types)
  {
    var rest := TypeOptions(Sort(types));
    assert ([Placeholder] + rest)[1..] == rest;
    [Placeholder] + rest
  }

  /** The options shown depend only on the multiset of types: the order the
      types arrive in never shows. */
  lemma {:induction false} PopulateIgnoresOrder(a: seq<string>, b: seq<string>)
    requires multiset(a) == multiset(b)
    ensures PopulateTypeOptions(a) == PopulateTypeOptions(b)
  {
    SortedUnique(Sort(a), Sort(b));
  }

  /** Rendering the rendered types again reproduces the same options. */
  lemma {:induction false} PopulateIdempotent(types: seq<string>)
    ensures PopulateTypeOptions(Values(PopulateTypeOptions(types)[1..])) == PopulateTypeOptions(types)
  {
    PopulateIgnoresOrder(Values(PopulateTypeOptions(types)[1..]), types);
  }

  /** The options shown are exactly the given types, each once when the
      types arrive without duplicates. */
  lemma {:induction false} PopulateShowsEachType(types: seq<string>)
    ensures forall t :: t in Values(PopulateTypeOptions(types)[1..]) <==> t in types
    ensures NoDup(types) ==> NoDup(Values(PopulateTypeOptions(types)[1..]))
  {
    var shown := Values(PopulateTypeOptions(types)[1..]);
    forall t ensures t in shown <==> t in types {
      assert t in shown <==> t in multiset(shown);
      assert t in types <==> t in multiset(types);
    }
    if NoDup(types) {
      NoDupPermutation(types, shown);
    }
  }

  /** The page's `makeTypeMap` as the Make handler sees it, with the flag
      `makeTypeMappingExists` computed once when the page loads. */
  datatype TypeMap = TypeMap(enabled: bool, entries: map<string, seq<string>>)

  /** Page load (`script.js` lines 16 and 364-367): the flag is set when the page embeds
      a non-empty map; an absent map becomes an empty one. */
  function PageLoad(embedded: Option<map<string, seq<string>>>): (t: TypeMap)
    ensures t.enabled <==> embedded.Some? && |embedded.value| > 0
    ensures embedded.Some? ==> t.entries == embedded.value
    ensures embedded.None? ==> t.entries == map[]
  {
    match embedded
    case None => TypeMap(false, map[])
    case Some(m) => TypeMap(|m| > 0, m)
  }

  /** What a Make change leaves behind: the (possibly re-sorted) map, the Type
      options shown, and the request sent, if any. */
  datatype MakeChangeOutcome = MakeChangeOutcome(
    typeMap: TypeMap,
    options: seq<SelectOption>,
    request: Option<string>)

  /** The map answers for `make`: it was enabled at load and holds the key
      (any array is truthy in JavaScript, an empty one included). */
  predicate CacheHit(t: TypeMap, make: string)
  {
    t.enabled && make in t.entries
  }

  /** The Make `change` handler (`script.js` lines 22-52). On a hit the cached array is
      sorted in place and rendered; on a miss one request is sent and the
      placeholder and the loading option show until it completes. */
  function MakeChange(t: TypeMap, make: string): (r: MakeChangeOutcome)
    ensures r.request.None? <==> CacheHit(t, make)
    ensures r.request.Some? ==>
              r.request.value == "/get_types/" + make && r.typeMap == t &&
              r.options == [Placeholder, LoadingOption]
    ensures r.request.None? ==>
              r.typeMap.enabled == t.enabled && r.typeMap.entries.Keys == t.entries.Keys &&
              Sorted(r.typeMap.entries[make]) &&
              multiset(r.typeMap.entries[make]) == multiset(t.entries[make]) &&
              (forall k | k in t.entries && k != make :: r.typeMap.entries[k] == t.entries[k]) &&
              r.options == PopulateTypeOptions(t.entries[make])
  {
    if CacheHit(t, make) then
      var types := t.entries[make];
      MakeChangeOutcome(TypeMap(t.enabled, t.entries[make := Sort(types)]), PopulateTypeOptions(types), None)
    else
      MakeChangeOutcome(t, [Placeholder, LoadingOption], Some("/get_types/" + make))
  }

  /** The reply to a types request as the page receives it: a parsed JSON
      body with its `success` and `types` fields, or a failed request. */
  datatype TypesReply =
    | TypesDelivered(success: Option<bool>, types: Option<seq<string>>)
    | TypesFailed

  /** The reply carries at least one type on a successful answer. */
  predicate UsableTypes(reply: TypesReply)
  {
    reply.TypesDelivered? && reply.success == Some(true) && reply.types.Some? && |reply.types.value| > 0
  }

  /** Completion of the types request (`script.js` lines 38-50). */
  function CompleteTypesFetch(reply: TypesReply): (options: seq<SelectOption>)
    ensures UsableTypes(reply) ==> options == PopulateTypeOptions(reply.types.value)
    ensures reply.TypesDelivered? && !UsableTypes(reply) ==> options == [NotFoundOption]
    ensures reply.TypesFailed? ==> options == [ErrorOption]
    ensures |options| == 1 <==> !UsableTypes(reply)
  {
    if UsableTypes(reply) then PopulateTypeOptions(reply.types.value)
    else if reply.TypesDelivered? then [NotFoundOption]
    else [ErrorOption]
  }

  /** A non-empty cached list renders exactly as the same list fetched from
      the server would. */
  lemma {:induction false} HitMatchesFetch(t: TypeMap, make: string)
    requires CacheHit(t, make) && |t.entries[make]| > 0
    ensures MakeChange(t, make).options == CompleteTypesFetch(TypesDelivered(Some(true), Some(t.entries[make])))
  {
  }

  /** An empty cached list still counts as a hit: no request is sent and only
      the placeholder remains, where the server would have said "not found". */
  lemma {:induction false} EmptyCachedListIsHit(t: TypeMap, make: string)
    requires t.enabled && make in t.entries && t.entries[make] == []
    ensures MakeChange(t, make).request.None?
    ensures MakeChange(t, make).options == [Placeholder]
    ensures CompleteTypesFetch(TypesDelivered(Some(true), Some([]))) == [NotFoundOption]
  {
    assert |PopulateTypeOptions([])| == 1;
  }

  /** `Object.assign` of the server's map into the page's (`script.js` lines 211-214):
      the server's entries win on shared keys; the load-time flag stays. */
  function MergeServerMap(t: TypeMap, server: map<string, seq<string>>): (r: TypeMap)
    ensures r.enabled == t.enabled
    ensures r.entries.Keys == t.entries.Keys + server.Keys
    ensures forall k | k in server :: r.entries[k] == server[k]
    ensures forall k | k in t.entries && k !in server :: r.entries[k] == t.entries[k]
  {
    TypeMap(t.enabled, t.entries + server)
  }

  /** A page that loaded without a usable map keeps asking the server, however
      much the server's map has since filled it. */
  lemma {:induction false} MergeNeverEnablesCache(t: TypeMap, server: map<string, seq<string>>, make: string)
    requires !t.enabled
    ensures MakeChange(MergeServerMap(t, server), make).request == Some("/get_types/" + make)
  {
  }

  /** Once the map is enabled, a merged entry is what a later Make change shows. */
  lemma {:induction false} MergedEntryIsShown(t: TypeMap, server: map<string, seq<string>>, make: string)
    requires t.enabled && make in server
    ensures MakeChange(MergeServerMap(t, server), make).request.None?
    ensures MakeChange(MergeServerMap(t, server), make).options == PopulateTypeOptions(server[make])
  {
  }
}

=== FILE: flows.dfy ===
/** Properties that cross from the server to the page: what the page shows
    for the server's answers, and what a form the page lets through can and
    cannot provoke on the server. */
module Flows {
  import opened Basics
  import opened Strings
  import opened Categories
  import opened Pipeline
  import opened TypeIndex
  import opened Validation
  import opened Dropdown
  import opened Page

  /** A types request for a make the loaded dataset carries shows the
      placeholder and then each of the make's types exactly once, in
      ascending order; a make it does not carry shows the not-found option. */
  lemma {:induction false} ServerTypesShown(rows: seq<Row>, make: string, allTypes: seq<string>)
    ensures var options := CompleteTypesFetch(TypesDelivered(Some(true), Some(GetTypes(make, BuildIndex(rows), Some(rows), allTypes))));
            HasMake(rows, make) ==>
              |options| > 1 && options[0] == Placeholder &&
              Sorted(Values(options[1..])) && NoDup(Values(options[1..])) &&
              forall t :: t in Values(options[1..]) <==> HasPair(rows, make, t)
    ensures !HasMake(rows, make) ==>
              CompleteTypesFetch(TypesDelivered(Some(true), Some(GetTypes(make, BuildIndex(rows), Some(rows), allTypes)))) ==
              [NotFoundOption]
  {
    var types := GetTypes(make, BuildIndex(rows), Some(rows), allTypes);
    IndexAgreesWithFilter(rows, make, allTypes);
    if HasMake(rows, make) {
      var i :| 0 <= i < |rows| && rows[i].make == make;
      assert HasPair(rows, make, rows[i].carType);
      assert rows[i].carType in types;
      PopulateShowsEachType(types);
    } else {
      UnknownMakeHasNoTypes(rows, make, allTypes);
    }
  }

  /** Every value of the form is non-empty, so is the value `get` returns for
      any name the form carries. */
  lemma {:induction false} FirstValueNonEmpty(form: Form, name: string)
    requires forall i | 0 <= i < |form| :: form[i].1 != ""
    requires exists i | 0 <= i < |form| :: form[i].0 == name
    ensures FirstValue(form, name) != ""
  {
    if form[0].0 != name {
      var i :| 0 <= i < |form| && form[i].0 == name;
      assert form[1..][i - 1].0 == name;
      FirstValueNonEmpty(form[1..], name);
    }
  }

  /** What the server reads for a name from the posted form is the value of
      the first control carrying that name, and '' when no control does: the
      browser's `FormData` and Flask's `request.form.get` agree on controls. */
  lemma {:induction false} PostedValueIsFirstControl(controls: seq<Control>, name: string)
    ensures IndexOf(controls, name).Some? ==>
              FirstValue(FormEntries(controls), name) == controls[IndexOf(controls, name).value].field.value
    ensures IndexOf(controls, name).None? ==> FirstValue(FormEntries(controls), name) == ""
  {
    var form := FormEntries(controls);
    FirstValueIsFirst(form, name);
    match IndexOf(controls, name)
    case Some(k) =>
      assert FirstNamed(form, name, k);
    case None =>
  }

  /** A form whose controls are all required and which the page accepted
      never comes back with a missing-value error: the server can still
      reject a value that does not parse or that an encoder does not know. */
  lemma {:induction false} AcceptedFormNeverMissing(controls: seq<Control>, parse: string -> Option<real>,
                                                    model: ModelInfo, toFloat: string -> Option<real>)
    requires forall i | 0 <= i < |controls| :: controls[i].field.required
    requires forall i | 0 <= i < |controls| :: !Flagged(controls[i].field, parse)
    ensures Prepare(FormEntries(controls), model, toFloat).Err? ==>
              !Prepare(FormEntries(controls), model, toFloat).error.Missing?
  {
    var form := FormEntries(controls);
    assert forall i | 0 <= i < |form| :: form[i].1 != "";
    var collected := Collect(form, |form|, model.categorical, toFloat);
    if collected.Err? {
      var i :| 0 <= i < |form| && FirstRejected(form, i, model.categorical, toFloat) &&
               collected.error == RejectionOf(form, i);
      FirstValueNonEmpty(form, form[i].0);
    } else if Engineer(collected.value, toFloat).Ok? {
      EncodeKeeps(Engineer(collected.value, toFloat).value, model.categorical, |model.categorical|, model.encode);
    }
  }

  /** The JSON body `/predict` answers with when the model is not consulted
      or returns (`app.py` lines 138, 160, 178-182): the error text, or the formatted
      price. The `error` field is truthy exactly for an aborted preparation. */
  function PredictAnswer(prepared: Result<seq<Value>, PredictError>, price: string,
                         py: PythonText): (reply: PredictReply)
    ensures reply.Delivered?
    ensures Truthy(reply.error) <==> prepared.Err?
    ensures prepared.Err? ==> reply.error == Some(Message(prepared.error, py))
    ensures prepared.Ok? ==> reply.price == Some(price)
  {
    match prepared
    case Err(e) => Delivered(Some(Message(e, py)), None)
    case Ok(_) => Delivered(None, Some(price))
  }

  /** Every error the server reports is shown on the page verbatim, with the
      result panel left as it was; a prepared vector shows the price. */
  lemma {:induction false} ServerAnswerShown(q: Page, prepared: Result<seq<Value>, PredictError>, price: string,
                                             py: PythonText)
    ensures prepared.Err? ==>
              CompletePredict(q, PredictAnswer(prepared, price, py)).errorShown &&
              CompletePredict(q, PredictAnswer(prepared, price, py)).errorText == Message(prepared.error, py) &&
              CompletePredict(q, PredictAnswer(prepared, price, py)).resultsShown == q.resultsShown
    ensures prepared.Ok? ==>
              CompletePredict(q, PredictAnswer(prepared, price, py)).resultsShown &&
              CompletePredict(q, PredictAnswer(prepared, price, py)).priceText == price
  {
  }
}

=== FILE: page.dfy ===
/** The prediction page as the browser script drives it: the form controls,
    the Type options, the year read-out and the result, error and loading
    panels, and the three events that change them: submitting the form, the
    prediction reply arriving, and the reset button. */
module Page {
  import opened Basics
  import opened Validation
  import opened Dropdown

  /** Everything on the page the script writes. */
  datatype Page = Page(
    controls: seq<Control>,
    typeOptions: seq<SelectOption>,
    yearText: string,
    resultsShown: bool,
    errorShown: bool,
    errorText: string,
    priceText: string,
    loading: bool)

  const InvalidFormText: string := "Please correct the highlighted fields."
  const PredictionFailedText: string := "An error occurred during prediction. Please try again."

  /** The first control carrying `name`, as `getElementById` finds it. */
  function IndexOf(controls: seq<Control>, name: string): (i: Option<nat>)
    ensures i.None? <==> forall j | 0 <= j < |controls| :: controls[j].field.name != name
    ensures i.Some? ==>
              i.value < |controls| && controls[i.value].field.name == name &&
              forall j | 0 <= j < i.value :: controls[j].field.name != name
  {
    if |controls| == 0 then None
    else if controls[0].field.name == name then Some(0)
    else
      match IndexOf(controls[1..], name)
      case None => None
      case Some(k) => Some(k + 1)
  }

  /** The `FormData` of the form: one (name, value) entry per control, in
      document order. */
  function FormEntries(controls: seq<Control>): (entries: seq<(string, string)>)
    ensures |entries| == |controls|
    ensures forall i | 0 <= i < |controls| :: entries[i] == (controls[i].field.name, controls[i].field.value)
  {
    seq(|controls|, i requires 0 <= i < |controls| => (controls[i].field.name, controls[i].field.value))
  }

  /** The form's `submit` handler (`script.js` lines 79-101) up to the request: validation
      runs first; a rejected form gets the banner and no request, an accepted
      one hides both panels, shows the loading indicator and posts its
      entries. */
  method Submit(p: Page, parse: string -> Option<real>) returns (r: Page, request: Option<seq<(string, string)>>)
    ensures |r.controls| == |p.controls|
    ensures forall i | 0 <= i < |p.controls| :: r.controls[i] == ValidateControl(p.controls[i], parse)
    ensures request.None? <==> exists i | 0 <= i < |p.controls| :: Flagged(p.controls[i].field, parse)
    ensures request.Some? ==>
              request.value == FormEntries(p.controls) &&
              !r.resultsShown && !r.errorShown && r.loading && r.errorText == p.errorText
    ensures request.None? ==>
              r.errorShown && r.errorText == InvalidFormText &&
              r.resultsShown == p.resultsShown && r.loading == p.loading
    ensures r.typeOptions == p.typeOptions && r.yearText == p.yearText && r.priceText == p.priceText
  {
    var valid, checked, focus := ValidateForm(p.controls, parse);
    if !valid {
      r := p.(controls := checked, errorShown := true, errorText := InvalidFormText);
      request := None;
    } else {
      r := p.(controls := checked, resultsShown := false, errorShown := false, loading := true);
      request := Some(FormEntries(p.controls));
    }
  }

  /** The reply to a prediction request as the page receives it: a parsed
      JSON body with its `error` and `predicted_price` fields, or a failed
      request (network error or a body that is not JSON). */
  datatype PredictReply =
    | Delivered(error: Option<string>, price: Option<string>)
    | TransportFailure

  /** Completion of the prediction request (`script.js` lines 102-130). An absent price
      renders as empty text. */
  function CompletePredict(p: Page, reply: PredictReply): (r: Page)
    ensures !r.loading
    ensures r.controls == p.controls && r.typeOptions == p.typeOptions && r.yearText == p.yearText
    ensures reply.Delivered? && Truthy(reply.error) ==>
              r.errorShown && r.errorText == reply.error.value &&
              r.resultsShown == p.resultsShown && r.priceText == p.priceText
    ensures reply.Delivered? && !Truthy(reply.error) ==>
              r.resultsShown && r.priceText == reply.price.GetOr("") &&
              r.errorShown == p.errorShown && r.errorText == p.errorText
    ensures reply.TransportFailure? ==>
              r.errorShown && r.errorText == PredictionFailedText &&
              r.resultsShown == p.resultsShown && r.priceText == p.priceText
  {
    match reply
    case TransportFailure =>
      p.(loading := false, errorShown := true, errorText := PredictionFailedText)
    case Delivered(error, price) =>
      if Truthy(error) then p.(loading := false, errorShown := true, errorText := error.value)
      else p.(loading := false, resultsShown := true, priceText := price.GetOr(""))
  }

  /** After an accepted submission, whatever the reply, the indicator is gone
      and exactly one panel shows: the result when the server answered
      without an error, the error otherwise. */
  lemma {:induction false} OnePanelAfterReply(q: Page, reply: PredictReply)
    requires !q.resultsShown && !q.errorShown
    ensures !CompletePredict(q, reply).loading
    ensures CompletePredict(q, reply).resultsShown <==> !CompletePredict(q, reply).errorShown
    ensures CompletePredict(q, reply).resultsShown <==> reply.Delivered? && !Truthy(reply.error)
  {
  }

  /** One control after `form.reset()` and the marker clean-up (`script.js` lines 135,
      147-157): its default value back (the Type select ends on the
      placeholder, whose value is empty), the class gone and the first
      tooltip of its group removed. */
  function ResetControl(c: Control): (r: Control)
    ensures r.field.name == c.field.name && r.field.required == c.field.required
    ensures r.field.isNumber == c.field.isNumber && r.field.min == c.field.min && r.field.max == c.field.max
    ensures r.defaultValue == c.defaultValue && !r.marked
    ensures r.field.value == if c.field.name == "Type" then Placeholder.value else c.defaultValue
    ensures |r.tooltips| == if |c.tooltips| == 0 then 0 else |c.tooltips| - 1
    ensures |c.tooltips| > 0 ==> c.tooltips == [c.tooltips[0]] + r.tooltips
  {
    var value := if c.field.name == "Type" then Placeholder.value else c.defaultValue;
    c.(field := c.field.(value := value), marked := false, tooltips := DropFirst(c.tooltips))
  }

  /** The reset button (`script.js` lines 134-158): every control reset, both panels
      hidden, the Type options back to the placeholder alone, and the year
      read-out showing the slider's default. */
  function Reset(p: Page): (r: Page)
    ensures |r.controls| == |p.controls|
    ensures forall i | 0 <= i < |p.controls| :: r.controls[i] == ResetControl(p.controls[i])
    ensures r.typeOptions == [Placeholder]
    ensures !r.resultsShown && !r.errorShown
    ensures r.loading == p.loading && r.errorText == p.errorText && r.priceText == p.priceText
    ensures IndexOf(p.controls, "Year").Some? ==>
              r.yearText == p.controls[IndexOf(p.controls, "Year").value].defaultValue
  {
    var controls := seq(|p.controls|, i requires 0 <= i < |p.controls| => ResetControl(p.controls[i]));
    var yearText :=
      match IndexOf(p.controls, "Year")
      case None => p.yearText
      case Some(i) => p.controls[i].defaultValue;
    p.(controls := controls, typeOptions := [Placeholder], yearText := yearText,
       resultsShown := false, errorShown := false)
  }

  /** Every control carries at most one tooltip. */
  predicate AllWellFormed(controls: seq<Control>)
  {
    forall i | 0 <= i < |controls| :: WellFormed(controls[i])
  }

  /** Reset leaves well-formed controls without any marker. */
  lemma {:induction false} ResetClearsMarkers(p: Page)
    requires AllWellFormed(p.controls)
    ensures forall i | 0 <= i < |Reset(p).controls| ::
              !Reset(p).controls[i].marked && Reset(p).controls[i].tooltips == []
  {
  }

  /** Pressing reset twice is pressing it once, on a page whose controls are
      well-formed. */
  lemma {:induction false} ResetIdempotent(p: Page)
    requires AllWellFormed(p.controls)
    ensures Reset(Reset(p)) == Reset(p)
  {
    var r := Reset(p);
    assert IndexOf(r.controls, "Year") == IndexOf(p.controls, "Year") by {
      IndexOfSameNames(p.controls, r.controls, "Year");
    }
    forall i | 0 <= i < |p.controls|
      ensures ResetControl(r.controls[i]) == r.controls[i]
    {
    }
  }

  /** `IndexOf` depends only on the names. */
  lemma {:induction false} IndexOfSameNames(a: seq<Control>, b: seq<Control>, name: string)
    requires |a| == |b| && forall i | 0 <= i < |a| :: a[i].field.name == b[i].field.name
    ensures IndexOf(a, name) == IndexOf(b, name)
  {
    if |a| > 0 && a[0].field.name != name {
      IndexOfSameNames(a[1..], b[1..], name);
    }
  }

  /** After a reset, a required Type select blocks submission until a type
      is chosen: its value is the placeholder's empty value. */
  lemma {:induction false} ResetBlocksSubmitUntilTypeChosen(p: Page, parse: string -> Option<real>, i: int)
    requires 0 <= i < |p.controls| && p.controls[i].field.name == "Type" && p.controls[i].field.required
    ensures Flagged(Reset(p).controls[i].field, parse)
  {
  }
}

=== FILE: pipeline.dfy ===
/** The front half of the `/predict` handler: turning the submitted form into
    the feature vector handed to the trained model. Four steps, each of which
    may abort the request with an error reply: collecting the inputs,
    deriving the engineered features, label-encoding the categorical
    features, and laying the vector out in the model's feature order. */
module Pipeline {
  import opened Basics
  import opened Strings
  import opened Categories

  /** The year the server measures a car's age from. */
  const CurrentYear: real := 2025.0

  /** The features feature engineering may add. */
  const DerivedFeatures: set<string> := {"Car_Age", "Make_Category", "Engine_Category", "Mileage_Category"}

  /** The submitted form: (name, value) entries in request order. */
  type Form = seq<(string, string)>

  /** What the saved model information provides: which features are
      categorical, the model's feature order, and the label encoders as one
      partial map from (feature, value) to a class code. */
  datatype ModelInfo = ModelInfo(
    categorical: seq<string>,
    features: seq<string>,
    encode: (string, Value) -> Option<int>)

  /** The ways the handler aborts before a prediction is made. */
  datatype PredictError =
    | Missing(feature: string)                // an empty form value
    | NotNumeric(feature: string, text: string) // float() rejected a value
    | AgeOfText                               // `Year` was text, so 2025 - Year raised
    | Unknown(feature: string, value: Value)  // an encoder rejected a value

  /** Entry `i` is the first entry of the form named `name`. */
  predicate FirstNamed(form: Form, name: string, i: int)
  {
    0 <= i < |form| && form[i].0 == name && forall j | 0 <= j < i :: form[j].0 != name
  }

  /** `request.form.get(name, '')`: the value of the first entry so named. */
  function FirstValue(form: Form, name: string): string
  {
    if |form| == 0 then ""
    else if form[0].0 == name then form[0].1
    else FirstValue(form[1..], name)
  }

  /** `FirstValue` is the value of the first entry carrying the name, and
      empty when no entry does. */
  lemma {:induction false} FirstValueIsFirst(form: Form, name: string)
    ensures forall i | FirstNamed(form, name, i) :: FirstValue(form, name) == form[i].1
    ensures (forall i | 0 <= i < |form| :: form[i].0 != name) ==> FirstValue(form, name) == ""
  {
    if |form| > 0 && form[0].0 != name {
      FirstValueIsFirst(form[1..], name);
      assert forall i | FirstNamed(form, name, i) :: FirstNamed(form[1..], name, i - 1);
      assert (forall i | 0 <= i < |form| :: form[i].0 != name) ==>
               (forall i | 0 <= i < |form[1..]| :: form[1..][i].0 != name);
    }
  }

  /** The names of the first `n` entries. */
  function Names(form: Form, n: nat): (names: set<string>)
    requires n <= |form|
    ensures forall i | 0 <= i < n :: form[i].0 in names
    ensures forall k | k in names :: exists i | 0 <= i < n :: form[i].0 == k
  {
    if n == 0 then {} else Names(form, n - 1) + {form[n - 1].0}
  }

  /** The stored form of a non-empty value: categorical values stay text,
      all others go through `float()`, which may fail. */
  function Converted(name: string, v: string, categorical: seq<string>, toFloat: string -> Option<real>): Option<Value>
  {
    if name in categorical then Some(Text(v))
    else
      match toFloat(v)
      case None => None
      case Some(x) => Some(Num(x))
  }

  /** Entry `i` survives collection: its value is non-empty and converts. */
  predicate Accepted(form: Form, i: int, categorical: seq<string>, toFloat: string -> Option<real>)
    requires 0 <= i < |form|
  {
    var v := FirstValue(form, form[i].0);
    v != "" && Converted(form[i].0, v, categorical, toFloat).Some?
  }

  predicate AcceptedBefore(form: Form, n: int, categorical: seq<string>, toFloat: string -> Option<real>)
    requires n <= |form|
  {
    forall i | 0 <= i < n :: Accepted(form, i, categorical, toFloat)
  }

  /** Entry `i` is the first entry collection rejects. */
  predicate FirstRejected(form: Form, i: int, categorical: seq<string>, toFloat: string -> Option<real>)
  {
    0 <= i < |form| && !Accepted(form, i, categorical, toFloat) && AcceptedBefore(form, i, categorical, toFloat)
  }

  /** The error a rejected entry produces. */
  function RejectionOf(form: Form, i: int): PredictError
    requires 0 <= i < |form|
  {
    var v := FirstValue(form, form[i].0);
    if v == "" then Missing(form[i].0) else NotNumeric(form[i].0, v)
  }

  /** Collection over the first `n` entries (`app.py` lines 129-138): the first
      rejected entry aborts; otherwise every named field is stored once. */
  function Collect(form: Form, n: nat, categorical: seq<string>, toFloat: string -> Option<real>)
    : (r: Result<map<string, Value>, PredictError>)
    requires n <= |form|
    ensures r.Ok? <==> AcceptedBefore(form, n, categorical, toFloat)
    ensures r.Err? ==> exists i | 0 <= i < n :: FirstRejected(form, i, categorical, toFloat) && r.error == RejectionOf(form, i)
  {
    if n == 0 then Ok(map[])
    else
      match Collect(form, n - 1, categorical, toFloat)
      case Err(e) => Err(e)
      case Ok(m) =>
        var name := form[n - 1].0;
        var v := FirstValue(form, name);
        if v == "" then
          assert FirstRejected(form, n - 1, categorical, toFloat);
          Err(Missing(name))
        else
          match Converted(name, v, categorical, toFloat)
          case None =>
            assert FirstRejected(form, n - 1, categorical, toFloat);
            Err(NotNumeric(name, v))
          case Some(x) =>
            Ok(m[name := x])
  }

  /** A successful collection stores exactly the submitted names, each
      holding its first value converted. */
  lemma {:induction false} CollectedValues(form: Form, n: nat, categorical: seq<string>, toFloat: string -> Option<real>)
    requires n <= |form| && Collect(form, n, categorical, toFloat).Ok?
    ensures Collect(form, n, categorical, toFloat).value.Keys == Names(form, n)
    ensures forall k | k in Collect(form, n, categorical, toFloat).value ::
              Converted(k, FirstValue(form, k), categorical, toFloat) == Some(Collect(form, n, categorical, toFloat).value[k])
  {
    if n > 0 {
      CollectedValues(form, n - 1, categorical, toFloat);
    }
  }

  /** The derived features that engineering adds to `m`. */
  function Derived(m: map<string, Value>): (d: set<string>)
    ensures d <= DerivedFeatures
  {
    (if "Year" in m then {"Car_Age"} else {}) +
    (if "Make" in m then {"Make_Category"} else {}) +
    (if "Engine_Size" in m then {"Engine_Category"} else {}) +
    (if "Mileage" in m then {"Mileage_Category"} else {})
  }

  /** Feature engineering (`app.py` lines 141-151). */
  function Engineer(m: map<string, Value>, toFloat: string -> Option<real>): (r: Result<map<string, Value>, PredictError>)
    ensures r.Err? <==> "Year" in m && m["Year"].Text?
    ensures r.Err? ==> r.error == AgeOfText
    ensures r.Ok? && "Year" in m ==> "Car_Age" in r.value && r.value["Car_Age"] == Num(CurrentYear - m["Year"].num)
  {
    if "Year" in m && m["Year"].Text? then Err(AgeOfText)
    else
      var aged := if "Year" in m then m["Car_Age" := Num(CurrentYear - m["Year"].num)] else m;
      var classed := if "Make" in aged then aged["Make_Category" := Text(CategorizeMake(aged["Make"]).Label())] else aged;
      var sized :=
        if "Engine_Size" in classed
        then classed["Engine_Category" := Text(CategorizeEngine(classed["Engine_Size"], toFloat).Label())]
        else classed;
      var driven :=
        if "Mileage" in sized
        then sized["Mileage_Category" := Text(CategorizeMileage(sized["Mileage"], toFloat).Label())]
        else sized;
      Ok(driven)
  }

  /** Engineering adds exactly the derived features whose source was submitted. */
  lemma {:induction false} EngineerKeys(m: map<string, Value>, toFloat: string -> Option<real>)
    requires Engineer(m, toFloat).Ok?
    ensures Engineer(m, toFloat).value.Keys == m.Keys + Derived(m)
  {
  }

  /** Engineering alters no submitted entry except one a derived feature replaces. */
  lemma {:induction false} EngineerKeepsSubmitted(m: map<string, Value>, toFloat: string -> Option<real>)
    requires Engineer(m, toFloat).Ok?
    ensures forall k | k in m && k !in Derived(m) :: Engineer(m, toFloat).value[k] == m[k]
  {
  }

  /** The three class features hold the labels of the bucketed source values. */
  lemma {:induction false} EngineerClasses(m: map<string, Value>, toFloat: string -> Option<real>)
    requires Engineer(m, toFloat).Ok?
    ensures "Make" in m ==>
              Engineer(m, toFloat).value["Make_Category"] == Text(CategorizeMake(m["Make"]).Label())
    ensures "Engine_Size" in m ==>
              Engineer(m, toFloat).value["Engine_Category"] == Text(CategorizeEngine(m["Engine_Size"], toFloat).Label())
    ensures "Mileage" in m ==>
              Engineer(m, toFloat).value["Mileage_Category"] == Text(CategorizeMileage(m["Mileage"], toFloat).Label())
  {
  }

  /** Feature `f` is absent or its encoder accepts its value. */
  predicate Encodable(m: map<string, Value>, f: string, encode: (string, Value) -> Option<int>)
  {
    f !in m || encode(f, m[f]).Some?
  }

  /** `categorical[j]` is the first categorical feature whose value is rejected. */
  predicate FirstUnencodable(m: map<string, Value>, categorical: seq<string>, j: int, encode: (string, Value) -> Option<int>)
  {
    0 <= j < |categorical| && !Encodable(m, categorical[j], encode) &&
    forall i | 0 <= i < j :: Encodable(m, categorical[i], encode)
  }

  /** Label encoding of the first `n` categorical features, in their listed
      order (`app.py` lines 154-160). */
  function Encode(m: map<string, Value>, categorical: seq<string>, n: nat, encode: (string, Value) -> Option<int>)
    : (r: Result<map<string, Value>, PredictError>)
    requires n <= |categorical|
  {
    if n == 0 then Ok(m)
    else
      match Encode(m, categorical, n - 1, encode)
      case Err(e) => Err(e)
      case Ok(done) =>
        var f := categorical[n - 1];
        if f !in done then Ok(done)
        else
          match encode(f, done[f])
          case None => Err(Unknown(f, done[f]))
          case Some(code) => Ok(done[f := Num(code as real)])
  }

  /** Encoding keeps the set of features, touches only the listed ones, and
      fails only on a listed feature that is present. */
  lemma {:induction false} EncodeKeeps(m: map<string, Value>, categorical: seq<string>, n: nat,
                                       encode: (string, Value) -> Option<int>)
    requires n <= |categorical|
    ensures Encode(m, categorical, n, encode).Ok? ==> Encode(m, categorical, n, encode).value.Keys == m.Keys
    ensures Encode(m, categorical, n, encode).Ok? ==>
              forall k | k in m && k !in categorical[..n] :: Encode(m, categorical, n, encode).value[k] == m[k]
    ensures Encode(m, categorical, n, encode).Err? ==>
              var e := Encode(m, categorical, n, encode).error;
              e.Unknown? && e.feature in categorical[..n] && e.feature in m
  {
    if n > 0 {
      EncodeKeeps(m, categorical, n - 1, encode);
      assert categorical[..n] == categorical[..n - 1] + [categorical[n - 1]];
    }
  }

  /** With each categorical feature listed once, encoding succeeds exactly
      when every listed value present is known to its encoder. */
  lemma {:induction false} EncodeSucceeds(m: map<string, Value>, categorical: seq<string>, n: nat,
                                          encode: (string, Value) -> Option<int>)
    requires n <= |categorical| && NoDup(categorical)
    ensures Encode(m, categorical, n, encode).Ok? <==> forall j | 0 <= j < n :: Encodable(m, categorical[j], encode)
  {
    if n > 0 {
      EncodeSucceeds(m, categorical, n - 1, encode);
      EncodeKeeps(m, categorical, n - 1, encode);
      assert categorical[n - 1] !in categorical[..n - 1];
    }
  }

  /** With each categorical feature listed once, a successful encoding
      replaces each listed value present by its class code. */
  lemma {:induction false} EncodeCodes(m: map<string, Value>, categorical: seq<string>, n: nat,
                                       encode: (string, Value) -> Option<int>)
    requires n <= |categorical| && NoDup(categorical) && Encode(m, categorical, n, encode).Ok?
    ensures forall j | 0 <= j < n && categorical[j] in m ::
              encode(categorical[j], m[categorical[j]]).Some? &&
              categorical[j] in Encode(m, categorical, n, encode).value &&
              Encode(m, categorical, n, encode).value[categorical[j]] ==
                Num(encode(categorical[j], m[categorical[j]]).value as real)
  {
    if n > 0 {
      EncodeCodes(m, categorical, n - 1, encode);
      EncodeKeeps(m, categorical, n - 1, encode);
      assert categorical[n - 1] !in categorical[..n - 1];
    }
  }

  /** With each categorical feature listed once, a failed encoding reports
      the first listed value its encoder rejects. */
  lemma {:induction false} EncodeFirstUnknown(m: map<string, Value>, categorical: seq<string>, n: nat,
                                              encode: (string, Value) -> Option<int>)
    requires n <= |categorical| && NoDup(categorical) && Encode(m, categorical, n, encode).Err?
    ensures exists j | 0 <= j < n :: FirstUnencodable(m, categorical, j, encode) &&
                                     Encode(m, categorical, n, encode).error == Unknown(categorical[j], m[categorical[j]])
  {
    var f := categorical[n - 1];
    if Encode(m, categorical, n - 1, encode).Err? {
      EncodeFirstUnknown(m, categorical, n - 1, encode);
    } else {
      EncodeSucceeds(m, categorical, n - 1, encode);
      EncodeKeeps(m, categorical, n - 1, encode);
      assert f !in categorical[..n - 1];
      assert FirstUnencodable(m, categorical, n - 1, encode);
    }
  }

  /** `input_data.get(feature, 0)`. */
  function Lookup(m: map<string, Value>, feature: string): Value
  {
    if feature in m then m[feature] else Num(0.0)
  }

  /** The model input in feature-list order (`app.py` line 163). */
  function Layout(m: map<string, Value>, features: seq<string>): (v: seq<Value>)
    ensures |v| == |features|
    ensures forall i | 0 <= i < |features| :: v[i] == Lookup(m, features[i])
  {
    if |features| == 0 then [] else [Lookup(m, features[0])] + Layout(m, features[1..])
  }

  /** The whole front half of `predict`: form in, feature vector or error out. */
  function Prepare(form: Form, model: ModelInfo, toFloat: string -> Option<real>): (r: Result<seq<Value>, PredictError>)
    ensures r.Ok? ==> |r.value| == |model.features|
    ensures r.Ok? ==> AcceptedBefore(form, |form|, model.categorical, toFloat)
  {
    match Collect(form, |form|, model.categorical, toFloat)
    case Err(e) => Err(e)
    case Ok(inputs) =>
      match Engineer(inputs, toFloat)
      case Err(e) => Err(e)
      case Ok(engineered) =>
        match Encode(engineered, model.categorical, |model.categorical|, model.encode)
        case Err(e) => Err(e)
        case Ok(encoded) => Ok(Layout(encoded, model.features))
  }

  /** The first entry whose value is empty, with every earlier entry
      accepted, aborts the request with a missing-value error for it. */
  lemma {:induction false} FirstEmptyAborts(form: Form, model: ModelInfo, toFloat: string -> Option<real>, i: int)
    requires FirstRejected(form, i, model.categorical, toFloat)
    requires FirstValue(form, form[i].0) == ""
    ensures Prepare(form, model, toFloat) == Err(Missing(form[i].0))
  {
    var r := Collect(form, |form|, model.categorical, toFloat);
    assert r.Err?;
    var j :| 0 <= j < |form| && FirstRejected(form, j, model.categorical, toFloat) && r.error == RejectionOf(form, j);
  }

  /** No prediction is made while any form value is empty. */
  lemma {:induction false} EmptyValueBlocksPrediction(form: Form, model: ModelInfo, toFloat: string -> Option<real>, i: int)
    requires 0 <= i < |form| && form[i].1 == ""
    requires FirstValue(form, form[i].0) == form[i].1
    ensures Prepare(form, model, toFloat).Err?
  {
    assert !Accepted(form, i, model.categorical, toFloat);
  }

  /** A successful `Prepare` passed every stage, and its vector is the
      layout of the encoded inputs. */
  lemma {:induction false} PrepareStages(form: Form, model: ModelInfo, toFloat: string -> Option<real>)
    requires Prepare(form, model, toFloat).Ok?
    ensures Collect(form, |form|, model.categorical, toFloat).Ok?
    ensures Engineer(Collect(form, |form|, model.categorical, toFloat).value, toFloat).Ok?
    ensures Encode(Engineer(Collect(form, |form|, model.categorical, toFloat).value, toFloat).value,
                   model.categorical, |model.categorical|, model.encode).Ok?
    ensures Prepare(form, model, toFloat).value ==
              Layout(Encode(Engineer(Collect(form, |form|, model.categorical, toFloat).value, toFloat).value,
                            model.categorical, |model.categorical|, model.encode).value, model.features)
  {
  }

  /** Every submitted name is collected, holding its first value converted. */
  lemma {:induction false} CollectedField(form: Form, categorical: seq<string>, toFloat: string -> Option<real>, i: int)
    requires Collect(form, |form|, categorical, toFloat).Ok? && 0 <= i < |form|
    ensures form[i].0 in Collect(form, |form|, categorical, toFloat).value
    ensures Converted(form[i].0, FirstValue(form, form[i].0), categorical, toFloat) ==
              Some(Collect(form, |form|, categorical, toFloat).value[form[i].0])
  {
    CollectedValues(form, |form|, categorical, toFloat);
  }

  /** Encoding all categorical features leaves every other entry alone. */
  lemma {:induction false} EncodeKeepsOthers(m: map<string, Value>, categorical: seq<string>, encode: (string, Value) -> Option<int>, k: string)
    requires Encode(m, categorical, |categorical|, encode).Ok? && k in m && k !in categorical
    ensures k in Encode(m, categorical, |categorical|, encode).value
    ensures Encode(m, categorical, |categorical|, encode).value[k] == m[k]
  {
    EncodeKeeps(m, categorical, |categorical|, encode);
    assert categorical[..|categorical|] == categorical;
  }

  /** A plain numeric form field reaches the model as the number `float()`
      parsed from its (first) value. */
  lemma {:induction false} NumericFieldReachesVector(form: Form, model: ModelInfo, toFloat: string -> Option<real>, p: int, i: int)
    requires Prepare(form, model, toFloat).Ok?
    requires 0 <= p < |model.features| && 0 <= i < |form| && form[i].0 == model.features[p]
    requires form[i].0 !in model.categorical && form[i].0 !in DerivedFeatures
    ensures Prepare(form, model, toFloat).value[p].Num?
    ensures toFloat(FirstValue(form, form[i].0)) == Some(Prepare(form, model, toFloat).value[p].num)
  {
    PrepareStages(form, model, toFloat);
    CollectedField(form, model.categorical, toFloat, i);
    var inputs := Collect(form, |form|, model.categorical, toFloat).value;
    var engineered := Engineer(inputs, toFloat).value;
    EncodeKeepsOthers(engineered, model.categorical, model.encode, form[i].0);
  }

  /** The car's age reaches the model as 2025 minus the submitted year. */
  lemma {:induction false} CarAgeReachesVector(form: Form, model: ModelInfo, toFloat: string -> Option<real>, p: int, i: int)
    requires Prepare(form, model, toFloat).Ok?
    requires 0 <= p < |model.features| && model.features[p] == "Car_Age"
    requires 0 <= i < |form| && form[i].0 == "Year" && "Car_Age" !in model.categorical
    ensures "Year" !in model.categorical
    ensures toFloat(FirstValue(form, "Year")).Some?
    ensures Prepare(form, model, toFloat).value[p] == Num(CurrentYear - toFloat(FirstValue(form, "Year")).value)
  {
    PrepareStages(form, model, toFloat);
    CollectedField(form, model.categorical, toFloat, i);
    var inputs := Collect(form, |form|, model.categorical, toFloat).value;
    var engineered := Engineer(inputs, toFloat).value;
    EncodeKeepsOthers(engineered, model.categorical, model.encode, "Car_Age");
  }

  /** How Python prints the values an error text embeds: `str` of a float,
      and `repr` of a string (quotes chosen by content, escapes included). */
  datatype PythonText = PythonText(strOfFloat: real -> string, reprOfString: string -> string)

  /** The error text of the JSON reply (`app.py` lines 138, 160; the others are
      Python's own exception texts). Every error text is non-empty, so the
      page always treats it as an error. */
  function Message(e: PredictError, py: PythonText): (text: string)
    ensures |text| > 0
    ensures e.Missing? ==> |text| >= 18 && text[..18] == "Missing value for " && text[18..] == e.feature
    ensures e.Unknown? && e.value.Text? ==>
              text == "Unknown value for " + e.feature + ": " + e.value.text
    ensures e.Unknown? && e.value.Num? ==>
              text == "Unknown value for " + e.feature + ": " + py.strOfFloat(e.value.num)
    ensures e.NotNumeric? ==> text == "could not convert string to float: " + py.reprOfString(e.text)
  {
    match e
    case Missing(f) => "Missing value for " + f
    case NotNumeric(_, t) => "could not convert string to float: " + py.reprOfString(t)
    case AgeOfText => "unsupported operand type(s) for -: 'int' and 'str'"
    case Unknown(f, v) =>
      "Unknown value for " + f + ": " + (match v case Text(s) => s case Num(x) => py.strOfFloat(x))
  }

  /** A missing-value message names exactly one feature. */
  lemma {:induction false} MissingMessageInjective(a: string, b: string, py: PythonText)
    requires Message(Missing(a), py) == Message(Missing(b), py)
    ensures a == b
  {
    assert Message(Missing(a), py)[18..] == a;
  }
}

=== FILE: samples.dfy ===
/** The sample cards under the form: loading them from the server (which
    also merges the server's make-to-types map into the page's) and filling
    the form from a clicked card. */
module Samples {
  import opened Basics
  import opened Validation
  import opened Dropdown
  import opened Page

  /** One sample record as the card holds it: field name to the text the
      form would receive for it. */
  type Sample = map<string, string>

  /** The most cards shown at once. */
  const MaxCards: nat := 6

  const NoSamplesText: string := "No sample data available"
  const SamplesFailedText: string := "Error loading samples"

  /** The reply to the sample request as the page receives it: a parsed JSON
      body with its `error`, `make_type_map` and `samples` fields, or a failed
      request. */
  datatype SamplesReply =
    | SamplesDelivered(error: Option<string>, serverMap: Option<map<string, seq<string>>>, samples: Option<seq<Sample>>)
    | SamplesFailed

  /** What the samples panel shows. */
  datatype SamplesView = Cards(shown: seq<Sample>) | Notice(text: string)

  /** A card renders without raising: the mileage and the price are defined
      (their `toLocaleString` is called while building the card). */
  predicate Renderable(s: Sample)
  {
    "Mileage" in s && "Price" in s
  }

  /** The samples a successful reply offers for cards: the first six at most. */
  function Shown(samples: seq<Sample>): (shown: seq<Sample>)
    ensures |shown| == if |samples| < MaxCards then |samples| else MaxCards
    ensures shown <= samples
  {
    if |samples| <= MaxCards then samples else samples[..MaxCards]
  }

  /** Every card of the run renders. */
  predicate AllRenderable(shown: seq<Sample>)
  {
    forall i | 0 <= i < |shown| :: Renderable(shown[i])
  }

  /** The panel for the `samples` field of an error-free reply (lines
      216-250): cards for the leading samples, the empty notice when there
      are none, and the failure notice when a card cannot be built (the
      exception reaches the `catch` on `script.js` line 252). */
  function Panel(samples: Option<seq<Sample>>): (v: SamplesView)
    ensures v.Cards? <==> samples.Some? && |samples.value| > 0 && AllRenderable(Shown(samples.value))
    ensures v.Cards? ==> v.shown == Shown(samples.value)
    ensures v.Notice? ==>
              v.text == if samples.Some? && |samples.value| > 0 then SamplesFailedText else NoSamplesText
  {
    if samples.None? || |samples.value| == 0 then Notice(NoSamplesText)
    else if AllRenderable(Shown(samples.value)) then Cards(Shown(samples.value))
    else Notice(SamplesFailedText)
  }

  /** `loadSampleData` (`script.js` lines 202-256): the page's type map after the reply
      and what the panel shows. A truthy error returns before the merge; the
      merge happens before the cards are built, so a card that fails to
      render leaves the map merged but the panel on the failure notice. */
  function LoadSamples(t: TypeMap, reply: SamplesReply): (r: (TypeMap, SamplesView))
    ensures reply.SamplesFailed? ==> r == (t, Notice(SamplesFailedText))
    ensures reply.SamplesDelivered? && Truthy(reply.error) ==> r == (t, Notice(NoSamplesText))
    ensures reply.SamplesDelivered? && !Truthy(reply.error) ==>
              r.1 == Panel(reply.samples) &&
              r.0 == if reply.serverMap.Some? && |reply.serverMap.value| > 0
                     then MergeServerMap(t, reply.serverMap.value) else t
  {
    match reply
    case SamplesFailed => (t, Notice(SamplesFailedText))
    case SamplesDelivered(error, serverMap, samples) =>
      if Truthy(error) then (t, Notice(NoSamplesText))
      else
        var merged := if serverMap.Some? && |serverMap.value| > 0 then MergeServerMap(t, serverMap.value) else t;
        (merged, Panel(samples))
  }

  /** Never more than six cards, and they are the leading samples in order. */
  lemma {:induction false} CardsAreLeadingSamples(t: TypeMap, reply: SamplesReply, i: int)
    requires LoadSamples(t, reply).1.Cards?
    requires 0 <= i < |LoadSamples(t, reply).1.shown|
    ensures 0 < |LoadSamples(t, reply).1.shown| <= MaxCards
    ensures LoadSamples(t, reply).1.shown[i] == reply.samples.value[i]
  {
  }

  /** Samples beyond the sixth never influence the panel. */
  lemma {:induction false} LaterSamplesIgnored(a: seq<Sample>, b: seq<Sample>)
    requires |a| >= MaxCards && |b| >= MaxCards && a[..MaxCards] == b[..MaxCards]
    ensures Panel(Some(a)) == Panel(Some(b))
  {
    assert Shown(a) == Shown(b);
  }

  /** A map the server sends is merged even when its samples then fail to
      render, but never when the reply carries an error. */
  lemma {:induction false} MergeDespiteRenderFailure(t: TypeMap, serverMap: map<string, seq<string>>,
                                                     samples: seq<Sample>, error: Option<string>)
    requires |serverMap| > 0 && |samples| > 0 && !AllRenderable(Shown(samples))
    ensures !Truthy(error) ==>
              LoadSamples(t, SamplesDelivered(error, Some(serverMap), Some(samples))) ==
              (MergeServerMap(t, serverMap), Notice(SamplesFailedText))
    ensures Truthy(error) ==>
              LoadSamples(t, SamplesDelivered(error, Some(serverMap), Some(samples))).0 == t
  {
  }

  /** A record field the form receives: one without `Predicted` or `Error`
      in its name (the training report's columns). */
  predicate Applies(key: string)
  {
    !Contains(key, "Predicted") && !Contains(key, "Error")
  }

  /** The value a control holds after the sample's fields are written. */
  function FilledValue(c: Control, s: Sample, first: bool): string
  {
    var name := c.field.name;
    if first && name in s && Applies(name) then s[name] else c.field.value
  }

  /** Every entry of the sample written to its control (`script.js` lines 272-282): a
      control receives the field of its name when it is the first control of
      that name and the field applies. */
  function ApplyFields(controls: seq<Control>, s: Sample): (r: seq<Control>)
    ensures |r| == |controls|
    ensures forall i | 0 <= i < |controls| :: r[i] == controls[i].(field := controls[i].field.(value := r[i].field.value))
    ensures forall i | 0 <= i < |controls| && IndexOf(controls, controls[i].field.name) == Some(i) &&
                       controls[i].field.name in s && Applies(controls[i].field.name) ::
              r[i].field.value == s[controls[i].field.name]
    ensures forall i | 0 <= i < |controls| && !(IndexOf(controls, controls[i].field.name) == Some(i) &&
                       controls[i].field.name in s && Applies(controls[i].field.name)) ::
              r[i] == controls[i]
  {
    seq(|controls|, i requires 0 <= i < |controls| =>
      controls[i].(field := controls[i].field.(
        value := FilledValue(controls[i], s, IndexOf(controls, controls[i].field.name) == Some(i)))))
  }

  /** What filling from a card leaves: the page, the type map (a cache hit
      sorts the cached entry), and the types request sent, if any. */
  datatype FillOutcome = FillOutcome(page: Page, typeMap: TypeMap, request: Option<string>)

  /** The sample names a make the handler accepts (`sample.Make` truthy). */
  predicate NamesMake(s: Sample)
  {
    "Make" in s && s["Make"] != ""
  }

  /** The Make control holding the sample's make (`script.js` line 263). */
  function SetMake(controls: seq<Control>, m: nat, make: string): (r: seq<Control>)
    requires m < |controls|
    ensures |r| == |controls|
    ensures forall i | 0 <= i < |controls| :: r[i].field.name == controls[i].field.name
    ensures r[m].field.value == make
    ensures r[m] == controls[m].(field := controls[m].field.(value := make))
    ensures forall i | 0 <= i < |controls| && i != m :: r[i] == controls[i]
  {
    controls[m := controls[m].(field := controls[m].field.(value := make))]
  }

  /** `fillFormWithSample` (`script.js` lines 259-294), with the delayed part applied
      right after the Make change. Nothing happens unless the form has a Make
      control and the sample a non-empty make. Otherwise the Make is set, its
      change handler runs, the applicable fields are written, and the year
      read-out follows a written year. */
  function FillFormWithSample(p: Page, t: TypeMap, s: Sample): (r: FillOutcome)
    ensures IndexOf(p.controls, "Make").None? || !NamesMake(s) ==> r == FillOutcome(p, t, None)
    ensures IndexOf(p.controls, "Make").Some? && NamesMake(s) ==>
              r.typeMap == MakeChange(t, s["Make"]).typeMap &&
              r.request == MakeChange(t, s["Make"]).request &&
              r.page.typeOptions == MakeChange(t, s["Make"]).options &&
              r.page.yearText == (if "Year" in s && IndexOf(p.controls, "Year").Some? then s["Year"] else p.yearText)
    ensures r.page.resultsShown == p.resultsShown && r.page.errorShown == p.errorShown &&
            r.page.errorText == p.errorText && r.page.priceText == p.priceText && r.page.loading == p.loading
  {
    match IndexOf(p.controls, "Make")
    case None => FillOutcome(p, t, None)
    case Some(m) =>
      if NamesMake(s) then
        var change := MakeChange(t, s["Make"]);
        var yearText := if "Year" in s && IndexOf(p.controls, "Year").Some? then s["Year"] else p.yearText;
        var controls := ApplyFields(SetMake(p.controls, m, s["Make"]), s);
        FillOutcome(p.(controls := controls, typeOptions := change.options, yearText := yearText),
                    change.typeMap, change.request)
      else FillOutcome(p, t, None)
  }

  /** Setting the Make first is invisible in the end: the field loop writes
      the same make again, so the controls end exactly as the sample's
      applicable fields dictate. */
  lemma {:induction false} FillWritesApplicableFields(p: Page, t: TypeMap, s: Sample)
    requires IndexOf(p.controls, "Make").Some? && NamesMake(s)
    ensures FillFormWithSample(p, t, s).page.controls == ApplyFields(p.controls, s)
  {
    var m := IndexOf(p.controls, "Make").value;
    var b := SetMake(p.controls, m, s["Make"]);
    forall name ensures IndexOf(p.controls, name) == IndexOf(b, name) {
      IndexOfSameNames(p.controls, b, name);
    }
    MakeAndYearApply();
    forall i | 0 <= i < |p.controls|
      ensures ApplyFields(b, s)[i] == ApplyFields(p.controls, s)[i]
    {
      if i == m {
        assert IndexOf(b, "Make") == Some(m);
      }
    }
  }

  /** `Make` and `Year` are fields the form receives. */
  lemma MakeAndYearApply()
    ensures Applies("Make") && Applies("Year")
  {
    ContainsWindow("Make", "Predicted");
    ContainsWindow("Make", "Error");
    ContainsWindow("Year", "Predicted");
    ContainsWindow("Year", "Error");
  }

  /** Two samples agree on every field the form receives. */
  ghost predicate AgreeOnApplicable(s1: Sample, s2: Sample)
  {
    forall k | Applies(k) :: (k in s1 <==> k in s2) && (k in s1 ==> s1[k] == s2[k])
  }

  lemma {:induction false} ApplyFieldsAgree(controls: seq<Control>, s1: Sample, s2: Sample)
    requires AgreeOnApplicable(s1, s2)
    ensures ApplyFields(controls, s1) == ApplyFields(controls, s2)
  {
    forall i | 0 <= i < |controls|
      ensures ApplyFields(controls, s1)[i] == ApplyFields(controls, s2)[i]
    {
      var first := IndexOf(controls, controls[i].field.name) == Some(i);
      assert FilledValue(controls[i], s1, first) == FilledValue(controls[i], s2, first);
    }
  }

  /** The report columns of a sample (its predicted price, its error) never
      reach the page: samples that agree on every applicable field fill the
      form alike. */
  lemma {:induction false} FillIgnoresReportFields(p: Page, t: TypeMap, s1: Sample, s2: Sample)
    requires AgreeOnApplicable(s1, s2)
    ensures FillFormWithSample(p, t, s1) == FillFormWithSample(p, t, s2)
  {
    MakeAndYearApply();
    if IndexOf(p.controls, "Make").Some? && NamesMake(s1) {
      ApplyFieldsAgree(SetMake(p.controls, IndexOf(p.controls, "Make").value, s1["Make"]), s1, s2);
    }
  }
}

=== FILE: strings.dfy ===
/** Orders and sequence operations the system relies on: the code-unit order
    used by JavaScript's default `Array.prototype.sort`, a sort into that
    order, and the first-occurrence de-duplication of pandas' `unique`. */
module Strings {

  /** Lexicographic order on code units; the empty string is least. */
  predicate Leq(a: string, b: string)
  {
    |a| == 0 || (|b| > 0 && (a[0] < b[0] || (a[0] == b[0] && Leq(a[1..], b[1..]))))
  }

  lemma {:induction false} LeqReflexive(a: string)
    ensures Leq(a, a)
  {
    if |a| > 0 {
      LeqReflexive(a[1..]);
    }
  }

  lemma {:induction false} LeqAntisymmetric(a: string, b: string)
    requires Leq(a, b) && Leq(b, a)
    ensures a == b
  {
    if |a| > 0 {
      LeqAntisymmetric(a[1..], b[1..]);
      assert a == [a[0]] + a[1..] && b == [b[0]] + b[1..];
    }
  }

  lemma {:induction false} LeqTransitive(a: string, b: string, c: string)
    requires Leq(a, b) && Leq(b, c)
    ensures Leq(a, c)
  {
    if |a| > 0 && a[0] == b[0] && b[0] == c[0] {
      LeqTransitive(a[1..], b[1..], c[1..]);
    }
  }

  lemma {:induction false} LeqTotal(a: string, b: string)
    ensures Leq(a, b) || Leq(b, a)
  {
    if |a| > 0 && |b| > 0 && a[0] == b[0] {
      LeqTotal(a[1..], b[1..]);
    }
  }

  /** Ascending in the code-unit order. */
  predicate Sorted(s: seq<string>)
  {
    forall i, j | 0 <= i < j < |s| :: Leq(s[i], s[j])
  }

  /** `x` is below every element of `s`. */
  predicate LowerBound(x: string, s: seq<string>)
  {
    forall i | 0 <= i < |s| :: Leq(x, s[i])
  }

  /** A lower bound of a sequence bounds every rearrangement of it. */
  lemma {:induction false} LowerBoundPermutation(x: string, s: seq<string>, t: seq<string>)
    requires LowerBound(x, s) && multiset(s) == multiset(t)
    ensures LowerBound(x, t)
  {
    forall i | 0 <= i < |t|
      ensures Leq(x, t[i])
    {
      assert t[i] in multiset(t);
      assert t[i] in s;
      var j :| 0 <= j < |s| && s[j] == t[i];
    }
  }

  /** Dropping the head keeps a sequence sorted. */
  lemma {:induction false} SortedTail(s: seq<string>)
    requires Sorted(s) && |s| > 0
    ensures Sorted(s[1..])
  {
  }

  /** A lower bound of a sorted sequence may be put in front of it. */
  lemma {:induction false} SortedCons(x: string, s: seq<string>)
    requires Sorted(s) && LowerBound(x, s)
    ensures Sorted([x] + s)
  {
  }

  /** Places `x` into the sorted `s`, keeping it sorted. */
  function Insert(x: string, s: seq<string>): (r: seq<string>)
    requires Sorted(s)
    ensures Sorted(r)
    ensures |r| == |s| + 1
    ensures multiset(r) == multiset(s) + multiset{x}
  {
    if |s| == 0 then [x]
    else if Leq(x, s[0]) then
      assert LowerBound(x, s) by {
        forall j | 0 <= j < |s| ensures Leq(x, s[j]) {
          if j > 0 { LeqTransitive(x, s[0], s[j]); }
        }
      }
      SortedCons(x, s);
      [x] + s
    else
      SortedTail(s);
      var t := Insert(x, s[1..]);
      assert LowerBound(s[0], [x] + s[1..]) by {
        LeqTotal(x, s[0]);
      }
      assert multiset([x] + s[1..]) == multiset(t);
      LowerBoundPermutation(s[0], [x] + s[1..], t);
      SortedCons(s[0], t);
      assert s == [s[0]] + s[1..];
      [s[0]] + t
  }

  /** The ascending rearrangement of `s`: what `types.sort()` leaves in `types`. */
  function Sort(s: seq<string>): (r: seq<string>)
    ensures Sorted(r)
    ensures |r| == |s|
    ensures multiset(r) == multiset(s)
  {
    if |s| == 0 then []
    else
      assert s == [s[0]] + s[1..];
      Insert(s[0], Sort(s[1..]))
  }

  /** The head of a sorted sequence is below each of its elements. */
  lemma {:induction false} SortedHeadLeast(a: seq<string>, x: string)
    requires Sorted(a) && x in a
    ensures Leq(a[0], x)
  {
    var i :| 0 <= i < |a| && a[i] == x;
    if i == 0 {
      LeqReflexive(x);
    }
  }

  /** Splitting off the head of a non-empty sequence splits its multiset. */
  lemma {:induction false} MultisetTail(a: seq<string>)
    requires |a| > 0
    ensures multiset(a[1..]) == multiset(a) - multiset{a[0]}
  {
    assert a == [a[0]] + a[1..];
  }

  /** Two sorted rearrangements of each other start with the same element. */
  lemma {:induction false} SortedSameHead(a: seq<string>, b: seq<string>)
    requires Sorted(a) && Sorted(b) && multiset(a) == multiset(b) && |a| > 0
    ensures |b| > 0 && a[0] == b[0]
  {
    assert a[0] in multiset(a);
    assert a[0] in b;
    assert b[0] in multiset(b);
    assert b[0] in a;
    SortedHeadLeast(b, a[0]);
    SortedHeadLeast(a, b[0]);
    LeqAntisymmetric(a[0], b[0]);
  }

  /** A sorted rearrangement is unique: any two sorted sequences holding the
      same elements are equal. */
  lemma {:induction false} SortedUnique(a: seq<string>, b: seq<string>)
    requires Sorted(a) && Sorted(b) && multiset(a) == multiset(b)
    ensures a == b
  {
    if |a| == 0 {
      assert |multiset(b)| == 0;
    } else {
      SortedSameHead(a, b);
      MultisetTail(a);
      MultisetTail(b);
      SortedTail(a);
      SortedTail(b);
      SortedUnique(a[1..], b[1..]);
      assert a == [a[0]] + a[1..];
      assert b == [b[0]] + b[1..];
    }
  }

  /** Sorting is the only sorted rearrangement, so sorting twice changes nothing. */
  lemma {:induction false} SortIdempotent(s: seq<string>)
    ensures Sort(Sort(s)) == Sort(s)
  {
    SortedUnique(Sort(Sort(s)), Sort(s));
  }

  /** No element occurs twice. */
  predicate NoDup<T(==)>(s: seq<T>)
  {
    forall i, j | 0 <= i < j < |s| :: s[i] != s[j]
  }

  /** In a sequence without duplicates every element occurs at most once. */
  lemma {:induction false} NoDupCount<T>(s: seq<T>, x: T)
    requires NoDup(s)
    ensures multiset(s)[x] <= 1
  {
    if |s| > 0 {
      assert s == [s[0]] + s[1..];
      assert NoDup(s[1..]);
      NoDupCount(s[1..], x);
      if s[0] == x {
        assert x !in s[1..];
      }
    }
  }

  /** A rearrangement of a sequence without duplicates has none either. */
  lemma {:induction false} NoDupPermutation<T>(s: seq<T>, t: seq<T>)
    requires NoDup(s) && multiset(s) == multiset(t)
    ensures NoDup(t)
  {
    forall i, j | 0 <= i < j < |t|
      ensures t[i] != t[j]
    {
      if t[i] == t[j] {
        var x := t[j];
        assert t == t[..j] + [x] + t[j + 1..];
        assert x in t[..j] by {
          assert t[..j][i] == x;
        }
        assert multiset(t)[x] >= 2 by {
          assert multiset(t) == multiset(t[..j]) + multiset{x} + multiset(t[j + 1..]);
        }
        NoDupCount(s, x);
        assert false;
      }
    }
  }

  /** `u` lists elements in the order they first occur in `s`: whatever `u`
      puts before an element occurs in `s` before any occurrence of it. */
  predicate FirstOccurrenceOrder(u: seq<string>, s: seq<string>)
  {
    forall i, j, k | 0 <= i < j < |u| && 0 <= k < |s| && s[k] == u[j] :: u[i] in s[..k]
  }

  /** The distinct elements of `s`, in order of first occurrence, as pandas'
      `Series.unique()` returns them. */
  function Unique(s: seq<string>): (u: seq<string>)
    ensures NoDup(u)
    ensures forall x :: x in u <==> x in s
    ensures FirstOccurrenceOrder(u, s)
  {
    if |s| == 0 then []
    else
      var init := s[..|s| - 1];
      var p := Unique(init);
      var x := s[|s| - 1];
      assert s == init + [x];
      assert forall k | 0 <= k < |init| :: s[..k] == init[..k];
      if x in p then p
      else
        assert forall k | 0 <= k < |init| :: s[k] != x;
        p + [x]
  }
}

=== FILE: typeindex.dfy ===
/** The make-to-types index the server builds from the dataset at start-up,
    and the `/get_types/<make>` lookup that answers from it. */
module TypeIndex {
  import opened Basics
  import opened Strings

  /** One dataset row, reduced to the two columns the index reads. */
  datatype Row = Row(make: string, carType: string)

  /** Some row carries this make. */
  predicate HasMake(rows: seq<Row>, make: string)
  {
    exists i | 0 <= i < |rows| :: rows[i].make == make
  }

  /** Some row pairs this make with this type. */
  predicate HasPair(rows: seq<Row>, make: string, carType: string)
  {
    exists i | 0 <= i < |rows| :: rows[i].make == make && rows[i].carType == carType
  }

  /** The `Make` column in row order. */
  function Makes(rows: seq<Row>): (makes: seq<string>)
    ensures forall make :: make in makes <==> HasMake(rows, make)
  {
    if |rows| == 0 then []
    else
      var init := rows[..|rows| - 1];
      var last := rows[|rows| - 1];
      assert forall i | 0 <= i < |init| :: init[i] == rows[i];
      Makes(init) + [last.make]
  }

  /** `df[df['Make'] == make]['Type']`: the types of the make's rows, in row order. */
  function TypesOf(rows: seq<Row>, make: string): (types: seq<string>)
    ensures forall t :: t in types <==> HasPair(rows, make, t)
  {
    if |rows| == 0 then []
    else
      var init := rows[..|rows| - 1];
      var last := rows[|rows| - 1];
      assert forall i | 0 <= i < |init| :: init[i] == rows[i];
      TypesOf(init, make) + (if last.make == make then [last.carType] else [])
  }

  /** `make_type_map` (`app.py` lines 52-58): one entry per distinct make, holding the
      distinct types of that make's rows in order of first occurrence. */
  function BuildIndex(rows: seq<Row>): (index: map<string, seq<string>>)
    ensures forall make :: make in index <==> HasMake(rows, make)
    ensures forall make | make in index :: NoDup(index[make])
    ensures forall make, t | make in index :: t in index[make] <==> HasPair(rows, make, t)
    ensures forall make | make in index :: FirstOccurrenceOrder(index[make], TypesOf(rows, make))
  {
    map make | make in Makes(rows) :: Unique(TypesOf(rows, make))
  }

  /** `get_types` (`app.py` lines 241-264) when it does not raise: the indexed list for
      a known make; otherwise the types filtered from the loaded dataset; and
      with no dataset loaded, every type the model knows (`allTypes`). */
  function GetTypes(make: string, index: map<string, seq<string>>, dataset: Option<seq<Row>>,
                    allTypes: seq<string>): (types: seq<string>)
    ensures make in index ==> types == index[make]
    ensures make !in index && dataset.Some? ==>
              NoDup(types) && forall t :: t in types <==> HasPair(dataset.value, make, t)
    ensures make !in index && dataset.None? ==> types == allTypes
  {
    if make in index then index[make]
    else if dataset.Some? then Unique(TypesOf(dataset.value, make))
    else allTypes
  }

  /** With the index built from the loaded dataset, answering from the index
      and filtering the dataset directly agree. */
  lemma {:induction false} IndexAgreesWithFilter(rows: seq<Row>, make: string, allTypes: seq<string>)
    ensures GetTypes(make, BuildIndex(rows), Some(rows), allTypes) == Unique(TypesOf(rows, make))
  {
    var index := BuildIndex(rows);
    if make in index {
      assert make in Makes(rows);
    }
  }

  /** A make no row carries filters to nothing. */
  lemma {:induction false} TypesOfAbsent(rows: seq<Row>, make: string)
    requires !HasMake(rows, make)
    ensures TypesOf(rows, make) == []
  {
    if |rows| > 0 {
      var init := rows[..|rows| - 1];
      assert forall i | 0 <= i < |init| :: init[i] == rows[i];
      TypesOfAbsent(init, make);
    }
  }

  /** A make no row carries gets a successful, empty answer when the dataset
      is loaded. */
  lemma {:induction false} UnknownMakeHasNoTypes(rows: seq<Row>, make: string, allTypes: seq<string>)
    requires !HasMake(rows, make)
    ensures GetTypes(make, BuildIndex(rows), Some(rows), allTypes) == []
  {
    IndexAgreesWithFilter(rows, make, allTypes);
    TypesOfAbsent(rows, make);
  }
}

=== FILE: validation.dfy ===
/** The client-side check run before a prediction request: which controls are
    flagged, the one message each flagged control gets, and the markers
    (the `error` class and the tooltip) a run leaves on each control. */
module Validation {
  import opened Basics

  /** A form control as validation reads it. `min` and `max` are the parsed
      `min`/`max` attributes; a missing attribute and one that does not parse
      both leave the bound unchecked. */
  datatype Field = Field(
    name: string,
    required: bool,
    isNumber: bool,
    value: string,
    min: Option<real>,
    max: Option<real>)

  /** The tooltips validation writes. */
  datatype Tooltip = Required | OutOfRange(min: Option<real>, max: Option<real>)

  /** The tooltip text; `showNumber` is JavaScript's number-to-string
      conversion, and an absent bound prints as `null`. */
  function TooltipText(m: Tooltip, showNumber: real -> string): (text: string)
    ensures m.Required? <==> text == "This field is required"
  {
    match m
    case Required => "This field is required"
    case OutOfRange(lo, hi) =>
      "Value must be between " + ShowBound(lo, showNumber) + " and " + ShowBound(hi, showNumber)
  }

  function ShowBound(b: Option<real>, showNumber: real -> string): string
  {
    match b
    case None => "null"
    case Some(x) => showNumber(x)
  }

  /** A non-empty number field whose value parses and lies outside a declared
      bound; `parse` is `parseFloat`, with `None` for NaN, which compares false. */
  predicate OutOfBounds(f: Field, parse: string -> Option<real>)
  {
    f.isNumber && f.value != "" && parse(f.value).Some? &&
    ((f.min.Some? && parse(f.value).value < f.min.value) ||
     (f.max.Some? && parse(f.value).value > f.max.value))
  }

  /** The rule of `validateForm` (`script.js` lines 310-327): required and empty, or out
      of bounds. */
  predicate Flagged(f: Field, parse: string -> Option<real>)
  {
    (f.required && f.value == "") || OutOfBounds(f, parse)
  }

  /** The messages one control gets from the two independent checks. */
  function FieldTooltips(f: Field, parse: string -> Option<real>): (msgs: seq<Tooltip>)
    ensures |msgs| <= 1
    ensures |msgs| == 1 <==> Flagged(f, parse)
    ensures f.required && f.value == "" ==> msgs == [Required]
    ensures OutOfBounds(f, parse) ==> msgs == [OutOfRange(f.min, f.max)]
  {
    (if f.required && f.value == "" then [Required] else []) +
    (if OutOfBounds(f, parse) then [OutOfRange(f.min, f.max)] else [])
  }

  /** Bounds are inclusive: a parsed value between them, either end included,
      is never out of bounds. */
  lemma BoundsInclusive(f: Field, parse: string -> Option<real>)
    requires f.value != "" && parse(f.value).Some?
    requires f.min.Some? ==> f.min.value <= parse(f.value).value
    requires f.max.Some? ==> parse(f.value).value <= f.max.value
    ensures !Flagged(f, parse)
  {
  }

  /** `x` lies in the closed interval the bounds describe; an absent bound
      admits every value. */
  predicate Within(x: real, lo: Option<real>, hi: Option<real>)
  {
    (lo.None? || lo.value <= x) && (hi.None? || x <= hi.value)
  }

  /** The validation rule case by case: a non-empty number that parses is
      flagged exactly when it lies outside the closed interval of its bounds;
      any other control is flagged exactly when it is required and empty. */
  lemma FlaggedRule(f: Field, parse: string -> Option<real>)
    ensures f.isNumber && f.value != "" && parse(f.value).Some? ==>
              (Flagged(f, parse) <==> !Within(parse(f.value).value, f.min, f.max))
    ensures !(f.isNumber && f.value != "" && parse(f.value).Some?) ==>
              (Flagged(f, parse) <==> f.required && f.value == "")
  {
  }

  /** A value the parser rejects never trips a bound, whatever the bounds. */
  lemma UnparsableNotOutOfBounds(f: Field, parse: string -> Option<real>)
    requires parse(f.value).None?
    ensures !OutOfBounds(f, parse)
  {
  }

  /** A form control with the markers validation leaves on it: the `error`
      class and the tooltips in its form group, oldest first. */
  datatype Control = Control(field: Field, defaultValue: string, marked: bool, tooltips: seq<Tooltip>)

  /** The first tooltip of the group is gone (`querySelector` finds one). */
  function DropFirst(tooltips: seq<Tooltip>): (rest: seq<Tooltip>)
    ensures |tooltips| > 0 ==> tooltips == [tooltips[0]] + rest
    ensures |tooltips| == 0 ==> rest == []
  {
    if |tooltips| == 0 then [] else tooltips[1..]
  }

  /** One control's turn in `validateForm` (`script.js` lines 300-328): clear the class,
      remove the first tooltip, then mark and add a tooltip if flagged. */
  function ValidateControl(c: Control, parse: string -> Option<real>): (r: Control)
    ensures r.field == c.field && r.defaultValue == c.defaultValue
    ensures r.marked <==> Flagged(c.field, parse)
    ensures |r.tooltips| <= |c.tooltips| + 1
    ensures DropFirst(c.tooltips) <= r.tooltips
    ensures |r.tooltips| == |DropFirst(c.tooltips)| + (if Flagged(c.field, parse) then 1 else 0)
    ensures Flagged(c.field, parse) ==>
              |r.tooltips| > 0 && r.tooltips[|r.tooltips| - 1] == FieldTooltips(c.field, parse)[0]
  {
    c.(marked := Flagged(c.field, parse), tooltips := DropFirst(c.tooltips) + FieldTooltips(c.field, parse))
  }

  /** At most one tooltip in the control's group. */
  predicate WellFormed(c: Control)
  {
    |c.tooltips| <= 1
  }

  /** On a well-formed control, validation leaves exactly the tooltip of its
      own check, so well-formedness is kept. */
  lemma {:induction false} ValidateLeavesOwnTooltip(c: Control, parse: string -> Option<real>)
    requires WellFormed(c)
    ensures ValidateControl(c, parse).tooltips == FieldTooltips(c.field, parse)
    ensures WellFormed(ValidateControl(c, parse))
  {
  }

  /** Markers from an earlier run do not influence the next: two well-formed
      controls with the same field and default validate alike. */
  lemma {:induction false} StaleMarkersIrrelevant(c: Control, d: Control, parse: string -> Option<real>)
    requires WellFormed(c) && WellFormed(d)
    requires c.field == d.field && c.defaultValue == d.defaultValue
    ensures ValidateControl(c, parse) == ValidateControl(d, parse)
  {
    ValidateLeavesOwnTooltip(c, parse);
    ValidateLeavesOwnTooltip(d, parse);
  }

  /** Validating twice with nothing changed in between changes nothing more. */
  lemma {:induction false} ValidateIdempotent(c: Control, parse: string -> Option<real>)
    requires WellFormed(c)
    ensures ValidateControl(ValidateControl(c, parse), parse) == ValidateControl(c, parse)
  {
    ValidateLeavesOwnTooltip(c, parse);
    StaleMarkersIrrelevant(ValidateControl(c, parse), c, parse);
  }

  /** The first marked control, which receives focus. */
  function FirstMarked(controls: seq<Control>): (focus: Option<nat>)
    ensures focus.None? <==> forall i | 0 <= i < |controls| :: !controls[i].marked
    ensures focus.Some? ==>
              focus.value < |controls| && controls[focus.value].marked &&
              forall i | 0 <= i < focus.value :: !controls[i].marked
  {
    if |controls| == 0 then None
    else if controls[0].marked then Some(0)
    else
      match FirstMarked(controls[1..])
      case None => None
      case Some(k) => Some(k + 1)
  }

  /** After a run, a control is marked exactly when the rule flags it, so no
      control is marked exactly when none is flagged. */
  lemma {:induction false} NoneMarkedIffNoneFlagged(controls: seq<Control>, checked: seq<Control>,
                                                    parse: string -> Option<real>)
    requires |checked| == |controls|
    requires forall i | 0 <= i < |controls| :: checked[i] == ValidateControl(controls[i], parse)
    ensures (forall i | 0 <= i < |checked| :: !checked[i].marked) <==>
            (forall i | 0 <= i < |controls| :: !Flagged(controls[i].field, parse))
  {
    forall i | 0 <= i < |controls|
      ensures checked[i].marked <==> Flagged(controls[i].field, parse)
    {
      assert checked[i] == ValidateControl(controls[i], parse);
    }
  }

  /** `validateForm` (`script.js` lines 297-344) over the controls in document order: the
      verdict, the controls with their new markers, and the control that
      receives focus when the form is rejected. */
  method ValidateForm(controls: seq<Control>, parse: string -> Option<real>)
    returns (valid: bool, checked: seq<Control>, focus: Option<nat>)
    ensures |checked| == |controls|
    ensures forall i | 0 <= i < |controls| :: checked[i] == ValidateControl(controls[i], parse)
    ensures valid <==> forall i | 0 <= i < |controls| :: !Flagged(controls[i].field, parse)
    ensures valid <==> focus.None?
    ensures focus.Some? ==>
              focus.value < |checked| && checked[focus.value].marked &&
              forall i | 0 <= i < focus.value :: !checked[i].marked
  {
    checked := [];
    var i := 0;
    while i < |controls|
      invariant 0 <= i <= |controls|
      invariant |checked| == i
      invariant forall j | 0 <= j < i :: checked[j] == ValidateControl(controls[j], parse)
    {
      checked := checked + [ValidateControl(controls[i], parse)];
      i := i + 1;
    }
    // The form is valid exactly when the run left no control marked.
    focus := FirstMarked(checked);
    valid := focus.None?;
    NoneMarkedIffNoneFlagged(controls, checked, parse);
  }
}
